=== FILE: README.md ===
# rrasterizer core in Dafny

A model of the core of rrasterizer, a small software triangle rasterizer written in Rust. The model covers:

- **Vectors.** The 2-, 3- and 4-component vectors, with their componentwise operators, compound assignments, cross and dot products.
- **Matrices.** The 4x4 matrix: transpose, identity, scaling, translation, perspective, products and the homogeneous point transform.
- **Bounding rectangles.** The axis-aligned bounding rectangle: built from bounds or points, intersection, emptiness.
- **Colour quantisation.** A real colour vector becomes an 8-bit RGBA colour.
- **The renderer.** A framebuffer with `new`, `clear`, `get_pixel`, `set_pixel` and `render`.

Each `render` call proceeds as follows:

1. It combines the renderer's perspective matrix with the caller's transformation.
2. It projects every triangle to screen space.
3. It culls triangles that do not face the viewer.
4. It clips the triangle's bounding box to the screen.
5. It scans the pixels of the clipped box row by row.
6. It writes a pixel when the pixel centre's normalised, depth-weighted barycentric weights are all nonnegative.

Scalars are exact reals (`real`), not `f32`. The source is generic over its scalar type `T`; the model fixes `T` to `real`.

Files and modules:

- `reals.dfy` (`Reals`): sign and division laws for reals.
- `vec2.dfy`, `vec3.dfy`, `vec4.dfy` (`Vec2`, `Vec3`, `Vec4`): the vector types.
- `mat4.dfy` (`Mat4`): the matrix type.
- `options.dfy` (`Options`): an `Option` datatype.
- `bound_rect.dfy` (`BoundRects`): the bounding rectangle.
- `color.dfy` (`Colors`): the colour and its quantisation.
- `renderer.dfy` (`Renderers`): the renderer.

`render` is given twice. `Renderers.RenderFrame` is a pointwise reference definition:

- Every triangle contributes a coverage: the colour, if any, it writes at each pixel.
- The coverages are laid over the framebuffer in list order.

`Renderers.Render` performs the source's three nested loops over triangles, rows and columns, through `DrawTriangleInto`, `ScanBox`, `ScanRow` and `ShadePixel`. Its postcondition is that it produces exactly `RenderFrame`.

## Model

| member | source | states |
|---|---|---|
| Vec2.Sub | src/vec2.rs:68-73 | subtracting `b` gives the vector that `b` must be added to to get back `a` |
| Vec2.DivScalar | src/vec2.rs:130-135 | dividing by a nonzero scalar is undone by multiplying by it |
| Vec2.Div | src/vec2.rs:144-149 | componentwise division by a vector with no zero component is undone by componentwise multiplication |
| Vec2.MagnitudeSquared | src/vec2.rs:21-23 | the squared length is nonnegative and zero only for the zero vector |
| Vec2.AddAssign | src/vec2.rs:56-59 | `+=`, updating one component after the other, ends equal to `+` |
| Vec2.SubAssign | src/vec2.rs:80-83 | `-=` ends equal to `-` |
| Vec2.MulAssign | src/vec2.rs:118-121 | `*=` ends equal to the componentwise product |
| Vec2.DivAssign | src/vec2.rs:156-159 | `/=` ends equal to the componentwise quotient |
| Vec2.SubUndoesAdd | src/vec2.rs:44-73 | `(a + b) - b == a`; `+` and `-` act componentwise |
| Vec2.NegInvolution | src/vec2.rs:168-173 | negating twice is the identity, and `a + (-a)` is the zero vector |
| Vec2.CrossAntisymmetric | src/vec2.rs:33-35 | swapping the arguments of the 2D cross product negates it; a vector crossed with itself gives 0 |
| Vec2.CrossLinear | src/vec2.rs:33-35 | the cross product is linear in each argument, over `+`, `-` and scaling |
| Vec3.Truncate | src/vec3.rs:19-24 | `vec2` keeps x and y, and adding back z gives the original vector |
| Vec3.MagnitudeSquared | src/vec3.rs:31-33 | nonnegative, and zero only for the zero vector |
| Vec3.Sub | src/vec3.rs:88-94 | subtraction is the inverse of addition |
| Vec3.DivScalar | src/vec3.rs:155-161 | division by a nonzero scalar is undone by scaling |
| Vec3.Div | src/vec3.rs:170-176 | componentwise division is undone by componentwise multiplication |
| Vec3.AddAssign | src/vec3.rs:75-79 | `+=` ends equal to `+` |
| Vec3.SubAssign | src/vec3.rs:101-105 | `-=` ends equal to `-` |
| Vec3.MulAssign | src/vec3.rs:142-146 | `*=` ends equal to the componentwise product |
| Vec3.DivAssign | src/vec3.rs:183-187 | `/=` ends equal to the componentwise quotient |
| Vec3.CrossAnticommutative | src/vec3.rs:43-49 | `a x b == -(b x a)` and `a x a` is zero |
| Vec3.CrossOrthogonal | src/vec3.rs:43-53 | the cross product is orthogonal to both factors (dot product 0) |
| Vec3.DotSymmetric | src/vec3.rs:51-53 | the dot product is symmetric |
| Vec3.MagnitudeSquaredIsDot | src/vec3.rs:31-53 | the squared length is the vector dotted with itself, hence nonnegative |
| Vec3.SubUndoesAdd | src/vec3.rs:62-94 | `(a + b) - b == a` |
| Vec3.MulScalarOne | src/vec3.rs:114-120 | scaling by 1 is the identity |
| Vec3.NegInvolution | src/vec3.rs:196-202 | negating twice is the identity; `v + (-v)` is zero |
| Vec4.Truncate | src/vec4.rs:20-26 | `vec3` keeps x, y, z, and adding back w gives the original vector |
| Vec4.MagnitudeSquared | src/vec4.rs:33-35 | nonnegative, and zero only for the zero vector |
| Vec4.Sub | src/vec4.rs:80-87 | subtraction is the inverse of addition |
| Vec4.DivScalar | src/vec4.rs:152-159 | division by a nonzero scalar is undone by scaling |
| Vec4.Div | src/vec4.rs:168-175 | componentwise division is undone by componentwise multiplication |
| Vec4.AddAssign | src/vec4.rs:66-71 | `+=` ends equal to `+` |
| Vec4.SubAssign | src/vec4.rs:94-99 | `-=` ends equal to `-` |
| Vec4.MulAssign | src/vec4.rs:138-143 | `*=` ends equal to the componentwise product |
| Vec4.DivAssign | src/vec4.rs:182-187 | `/=` ends equal to the componentwise quotient |
| Vec4.AddCommutativeAssociative | src/vec4.rs:52-59 | vector addition is commutative and associative |
| Vec4.MulScalarDistributes | src/vec4.rs:108-115 | scaling distributes over addition (used by colour blending) |
| Vec4.SubUndoesAdd | src/vec4.rs:52-87 | `(a + b) - b == a` |
| Vec4.NegInvolution | src/vec4.rs:196-203 | negating twice is the identity; `v + (-v)` is zero |
| Mat4.Transpose | src/mat4.rs:70-89 | row i of the transpose is column i of the matrix, and column j is row j |
| Mat4.TransposeInvolution | src/mat4.rs:70-89 | transposing twice gives the matrix back |
| Mat4.TransposeOfProduct | src/mat4.rs:70-89 | the transpose of `a * b` is `transpose(b) * transpose(a)` |
| Mat4.IdentityUnit | src/mat4.rs:96-115 | the identity is a two-sided unit of the matrix product and fixes every vector |
| Mat4.MulColumn | src/mat4.rs:262-284 | column j of `a * b` is `a` applied to column j of `b` |
| Mat4.MulVecComposes | src/mat4.rs:262-309 | applying `a * b` to a vector applies `b` and then `a` |
| Mat4.RowComposes | src/mat4.rs:262-309 | one row of the previous law |
| Mat4.ColumnsDetermine | src/mat4.rs:32-68 | two matrices with the same four columns are equal |
| Mat4.MulAssociative | src/mat4.rs:262-284 | the matrix product is associative |
| Mat4.MulAssign | src/mat4.rs:291-293 | `*=` ends equal to the product |
| Mat4.Perspective | src/mat4.rs:228-248 | the bottom row is (0, 0, -1, 0), so the homogeneous w of a point is its negated z |
| Mat4.Transform | src/mat4.rs:250-253 | the result scaled back by w is the first three coordinates of `m * (p, 1)` |
| Mat4.TransformIdentity | src/mat4.rs:96-115 | the identity transform fixes every point |
| Mat4.TransformTranslation | src/mat4.rs:207-226 | the translation matrix adds its vector to every point |
| Mat4.TransformScaling | src/mat4.rs:182-201 | the scaling matrix multiplies every point componentwise by its vector |
| Mat4.TransformScalingAround | src/mat4.rs:203-205 | `scaling_around` scales the offset from the pivot, so the pivot stays fixed |
| Mat4.TransformPerspective | src/mat4.rs:228-253 | through the perspective matrix, w is `-z` and every coordinate is divided by `-z` |
| Mat4.PerspectiveDepth | src/mat4.rs:240-243 | the depth entries send the near plane `z = -near` to depth -1 and the far plane `z = -far` to depth 1 |
| Mat4.DepthAtNear | src/mat4.rs:240-243 | after the divide by `-z`, eye depth `-near` has normalised depth -1 |
| Mat4.DepthAtFar | src/mat4.rs:240-243 | after the divide by `-z`, eye depth `-far` has normalised depth 1 |
| BoundRects.FromBounds | src/bound_rect.rs:10-15 | the corners are the given bounds; a point is inside exactly when it lies within them |
| BoundRects.Include | src/bound_rect.rs:27-38 | one loop step: the box grows to contain `p`, keeps what it contained, and every corner coordinate comes from the old box or from `p` |
| BoundRects.Scan | src/bound_rect.rs:26-39 | the loop over the remaining points: the result contains the start box and every point, and each corner coordinate is attained by the start box or by a point |
| BoundRects.FromPoints | src/bound_rect.rs:19-45 | `None` exactly for no points; otherwise the box contains every point and each corner coordinate belongs to one of them |
| BoundRects.FromPointsSmallest | src/bound_rect.rs:19-45 | every box containing all the points contains the box of the points, so it is the smallest one |
| BoundRects.FromThreePoints | src/bound_rect.rs:19-45 | the box of three points runs from their least to their greatest x and y |
| BoundRects.FromSinglePoint | src/bound_rect.rs:19-45 | one point gives the degenerate box at that point, which is empty |
| BoundRects.Intersection | src/bound_rect.rs:47-76 | a point is in the intersection exactly when it is in both boxes; its corners lie inside both and come from one of them |
| BoundRects.IntersectionCommutative | src/bound_rect.rs:47-76 | intersection does not depend on argument order |
| BoundRects.IntersectionIdempotent | src/bound_rect.rs:47-76 | a box intersected with itself is unchanged |
| BoundRects.IsEmpty | src/bound_rect.rs:78-83 | a box is empty exactly when no point lies strictly inside it; zero width or height is empty |
| Colors.Clamp | src/color.rs:10-13 | `num::clamp`: the result is within the bounds, is `x` when `x` is, and is the violated bound otherwise |
| Colors.Quantize | src/color.rs:10 | a channel saturates to 255 from 1 up and to 0 from 0 down, and is the floor of `x * 255` between |
| Colors.Vec4ToColor | src/color.rs:8-15 | each of r, g, b, a is the quantisation of x, y, z, w |
| Colors.QuantizesUnique | src/color.rs:8-15 | at most one byte is a channel's quantisation, so the previous contracts pin the colour down |
| Colors.QuantizeMonotone | src/color.rs:10-13 | a larger component never gives a smaller channel |
| Colors.ChannelsIndependent | src/color.rs:8-15 | each channel depends only on its own component |
| Colors.QuantizeExamples | src/color.rs:8-15 | the cast truncates: 0.5 gives 127; out-of-range components saturate |
| Renderers.IndexInRange | src/renderer.rs:117-123 | every on-screen pixel's index `y * width + x` lies within the `width * height` framebuffer |
| Renderers.IndexSplit | src/renderer.rs:117-123 | an index gives back its pixel, so distinct on-screen pixels have distinct entries |
| Renderers.New | src/renderer.rs:28-36 | the framebuffer has `width * height` entries, all opaque black, and the perspective matrix's bottom row maps w to `-z` |
| Renderers.Clear | src/renderer.rs:42-46 | every entry becomes the colour; length, dimensions and matrix are kept |
| Renderers.SetPixel | src/renderer.rs:121-123 | `get_pixel` at the same place reads the colour back; every other entry, the dimensions and the matrix are unchanged |
| Renderers.GetAfterSet | src/renderer.rs:117-123 | for on-screen pixels, a write is seen at its own pixel and at no other |
| Renderers.ToScreen | src/renderer.rs:54-61 | defined exactly when the perspective divide is; keeps depth; the affine map is invertible on each axis, so the normalised x is `2 * x / width - 1` and the normalised y is `2 * y / height - 1`; a zero dimension sends that axis to 0 |
| Renderers.ScreenAxis | src/renderer.rs:57-58 | the screen coordinate `(v + 1) / 2 * size` determines `v` when `size > 0` and is 0 when `size = 0` |
| Renderers.Ceil | src/renderer.rs:84-85 | the least integer not below `x` |
| Renderers.Prepare | src/renderer.rs:63-85 | a triangle survives only if it projects and faces the viewer, with its vertices as projected and a nonempty scanned range inside the screen |
| Renderers.RawWeightsSum | src/renderer.rs:87-98 | with equal depths, the raw weights sum to depth times half the signed area, wherever the pixel is |
| Renderers.Normalize | src/renderer.rs:98-101 | there are no normalised weights exactly when the raw sum is 0; otherwise the normalised weights sum to 1 |
| Renderers.NormalizeScales | src/renderer.rs:98-101 | each normalised weight times the raw sum is the raw weight |
| Renderers.BlendUniform | src/renderer.rs:104-106 | weights that sum to 1 mix three equal colours into that colour |
| Renderers.ShadeUniform | src/renderer.rs:93-107 | a triangle whose vertices share one colour writes that colour, quantised, wherever it writes |
| Renderers.WeightsAtVertex | src/renderer.rs:93-101 | at its first vertex, a front-facing triangle with nonzero depth there has weights (1, 0, 0) |
| Renderers.ShadeAtVertex | src/renderer.rs:93-107 | a pixel whose centre is the first vertex is written with that vertex's colour |
| Renderers.InsideSigns | src/renderer.rs:94-103 | with a positive total of edge crosses and depths of one sign, the normalised weights are all nonnegative exactly when the three edge crosses are |
| Renderers.ShadeInside | src/renderer.rs:93-107 | with depths of one sign, a pixel is shaded exactly when its centre lies inside the triangle, on the inner side of every edge |
| Renderers.CoversInside | src/renderer.rs:91-107 | within the scanned range, a triangle writes a pixel exactly when the pixel's centre is inside it; a triangle of one colour writes that colour at every such pixel |
| Renderers.AreaSpreads | src/renderer.rs:76-81 | a triangle with positive signed area has a screen box of positive width and height |
| Renderers.PrepareDecision | src/renderer.rs:64-81 | a triangle is scanned if and only if its three vertices project, it faces the viewer, and its screen box overlaps the inside of the screen |
| Renderers.CoversAtVertex | src/renderer.rs:76-107 | a front-facing triangle whose first vertex, at nonzero depth, is the centre of an on-screen pixel colours that pixel with the first vertex's colour |
| Renderers.Covers | src/renderer.rs:77-92 | a triangle colours only pixels on the screen |
| Renderers.ScannedRange | src/renderer.rs:77-85 | the scanned range starts less than one pixel before the vertices' least coordinate and ends less than one pixel after their greatest, on each axis; it starts at or before the least unless it starts at the screen edge 0, and ends at or after the greatest unless it ends at the far screen edge |
| Renderers.CoverNearTriangle | src/renderer.rs:77-92 | a pixel a triangle colours lies within one pixel of the triangle's screen bounding box |
| Renderers.OffScreenUnchanged | src/renderer.rs:77-92 | a triangle wholly beyond one screen edge changes no pixel |
| Renderers.PaintPixel | src/renderer.rs:117-123 | entry `y * width + x` of a painted framebuffer holds what the coverage gives pixel `(x, y)`, or its old colour |
| Renderers.PaintNothing | src/renderer.rs:63-114 | a coverage that writes nowhere leaves the framebuffer as it was |
| Renderers.DrawTrianglePixel | src/renderer.rs:63-114 | after one triangle, a pixel holds the triangle's colour for it if there is one, and otherwise its old colour |
| Renderers.CulledUnchanged | src/renderer.rs:76 | a triangle that projects but does not face the viewer changes nothing |
| Renderers.PaintAllPixel | src/renderer.rs:63-114 | after several coverages, a pixel holds what the last one to write it wrote, or its old colour |
| Renderers.NoLastWrite | src/renderer.rs:63-114 | if no coverage writes a pixel, none is the last to write it |
| Renderers.RenderAppend | src/renderer.rs:63 | triangles are drawn in list order: one more triangle is drawn over what the others produced |
| Renderers.LastWriterWins | src/renderer.rs:63-114 | painter's order: when no later triangle colours a pixel, the pixel ends as triangle `k` left it |
| Renderers.Untouched | src/renderer.rs:63-114 | a pixel that no triangle colours keeps its colour |
| Renderers.PaintBeforeStep | src/renderer.rs:91-109 | scanning one pixel writes what the coverage gives it at its own index |
| Renderers.CoverageWithinBox | src/renderer.rs:82-92 | a prepared triangle writes only inside its scanned range |
| Renderers.NoSetupNoCover | src/renderer.rs:63-113 | a triangle that does not project, is culled, or has an empty clipped box writes nowhere |
| Renderers.CoverIsShade | src/renderer.rs:91-107 | inside the scanned range, a triangle writes what the shading at the pixel centre gives |
| Renderers.ScanRow | src/renderer.rs:92-109 | the column loop paints one row of the scanned range |
| Renderers.ScanBox | src/renderer.rs:91-110 | the row loop paints the whole coverage of the triangle |
| Renderers.DrawTriangleInto | src/renderer.rs:64-112 | one iteration of the triangle loop draws the triangle exactly as the reference definition says |
| Renderers.Render | src/renderer.rs:48-115 | `render` ends with the reference framebuffer for the combined matrix; dimensions and matrix unchanged, and the framebuffer keeps `width * height` entries |

## Left out

- `main.rs`, `application.rs` and `lib.rs` (the window, input, the scene and the module list) are not part of this model.
- Floating point is not modelled. All arithmetic is exact real arithmetic, so `f32` rounding, infinities and NaN do not arise.
  - Where the source relies on NaN (a zero barycentric sum), the model states the outcome directly. `Normalize` returns `None` and the pixel is skipped. In `f32`, at least one weight would then be NaN or negative infinity, so the `>= 0` test skips the pixel there too.
- Renderers.ToScreen: a vertex whose homogeneous w is 0 makes the source divide by zero. The resulting infinite or NaN coordinates then go into the cull test. The model instead skips that triangle (`None`).
- Vec2.DivScalar, Vec2.Div, Vec3.DivScalar, Vec3.Div, Vec4.DivScalar, Vec4.Div, the `DivAssign` methods, Mat4.Perspective and Mat4.Transform: each requires a nonzero divisor. In `f32`, division by zero yields infinities or NaN instead.
- Renderers.New: it takes `scale`, the tangent of half the field of view, instead of the angle, because `tan` is not modelled. It requires `scale != 0`, which is what the perspective matrix needs.
- Integer widths are not modelled:
  - `width * height` and `y * width + x` are `u32` products in the source and could overflow there; here they are unbounded.
  - The float-to-`u32` casts of the box corners are `Floor` and `Ceil` on values the clip keeps within `[0, width]` and `[0, height]`, where the casts do not saturate.
- `magnitude` and `normalize` on every vector type are left out, because they need a square root.
- `Matrix4::rotation` and `Matrix4::rotation_around` are left out, because they need sine and cosine.
- The constructors `Vector2::new`, `Vector3::new`, `Vector4::new`, `Matrix4::new` and `BoundRect { .. }` are the datatype constructors. `Renderer::dimensions` is the pair of the `width` and `height` fields.
- `Vec2.Add`, `Vec2.Mul`, `Vec2.MulScalar`, `Vec2.Neg`, `Vec2.Cross`, the same operators of `Vec3` and `Vec4`, `Vec3.Dot`, `Mat4.Identity`, `Mat4.Scaling`, `Mat4.Translation`, `Mat4.ScalingAround`, `Mat4.Mul` and `Mat4.MulVec` have no contracts of their own. The lemmas in the table above state their laws.
- `Renderers.GetPixel` likewise has no contract of its own; `SetPixel` and `GetAfterSet` state its behaviour.
- Renderers.GetPixel, Renderers.SetPixel: the source panics when `y * width + x` is outside the framebuffer. Here an in-range index is a precondition, so the panic is not modelled.
- Renderers.Covers: its contract states only that a triangle colours on-screen pixels. Which pixels it writes is stated by `CoversInside` and `CoversAtVertex`. What colour it writes is stated by `CoverIsShade`, `ShadeUniform` and `ShadeAtVertex`. `CoverageWithinBox`, `NoSetupNoCover` and `CoverIsShade` are proof plumbing that unfold the cases of `Covers` for the loop proofs.
- Renderers.ShadeInside, Renderers.CoversInside: when the three depths differ in sign, the depth-weighted test in the source is not the geometric inside test, and the model states no inside property for that case.
- Renderers.Prepare: its own contract states the "only if" half of the cull-and-clip decision and does not relate the scanned range to the vertices. `PrepareDecision` states the decision in both directions. `ScannedRange` relates the range to the vertices. `CoverNearTriangle`, `OffScreenUnchanged` and `CoversAtVertex` draw the consequences for the pixels written.
- Renderers.ShadePixel: one step of the column loop. Its contract says it writes `Shade` at the pixel's index. What that colour means is stated by `ScanRow`, `ScanBox`, `Render`, `CoverIsShade`, `ShadeUniform` and `ShadeAtVertex`.
- `Renderers.Shade`, `Renderers.RawWeights`, `Renderers.Blend`, `Renderers.SignedArea` and `Renderers.PixelCentre` have no contracts of their own either. Their laws are stated by `ShadeInside`, `ShadeUniform`, `ShadeAtVertex`, `CoverIsShade`, `RawWeightsSum`, `WeightsAtVertex`, `BlendUniform` and `CulledUnchanged`.
- `Mat4.EyeDepth`, `BoundRects.Min3`, `BoundRects.Max3` `Renderers.OverlapsScreen` and `Renderers.InsideTriangle` are named expressions used by the lemmas above.
- `Renderers.Paint`, `Renderers.DrawTriangle`, `Renderers.PaintAll`, `Renderers.Coverages`, `Renderers.RenderFrame` and `Renderers.PaintBefore` are reference definitions. Their own contracts state only that the framebuffer length is kept. What they mean pixel by pixel is stated by `PaintPixel`, `DrawTrianglePixel`, `PaintAllPixel`, `LastWriterWins`, `Untouched` and `PaintBeforeStep`.
- Mutation is modelled functionally. Every `&mut self` operation returns the new renderer, vector or matrix.

=== FILE: bound_rect.dfy ===
/** Axis-aligned bounding rectangles over exact reals: construction from
    bounds, the smallest box around a point set, intersection and the
    emptiness test. A rectangle contains the closed box between its corners. */
module BoundRects {

  import Vec2
  import opened Options

  datatype BoundRect = BoundRect(min: Vec2.Vector2, max: Vec2.Vector2)

  /** `p` lies in the closed box spanned by `b`. */
  predicate Contains(b: BoundRect, p: Vec2.Vector2) {
    b.min.x <= p.x <= b.max.x && b.min.y <= p.y <= b.max.y
  }

  /** `p` lies strictly inside `b`. */
  predicate Interior(b: BoundRect, p: Vec2.Vector2) {
    b.min.x < p.x < b.max.x && b.min.y < p.y < b.max.y
  }

  /** Stores its four arguments unchanged, so it contains exactly the points
      within those bounds. */
  function FromBounds(xmin: real, ymin: real, xmax: real, ymax: real): (r: BoundRect)
    ensures r.min.x == xmin && r.min.y == ymin && r.max.x == xmax && r.max.y == ymax
    ensures forall p :: Contains(r, p) <==> xmin <= p.x <= xmax && ymin <= p.y <= ymax
  {
    BoundRect(Vec2.Vector2(xmin, ymin), Vec2.Vector2(xmax, ymax))
  }

  /** One step of the scan in `from_points`: widen `b` so that it takes in
      `p`, moving only the sides that `p` lies beyond. */
  function Include(b: BoundRect, p: Vec2.Vector2): (r: BoundRect)
    ensures Contains(r, p)
    ensures forall q :: Contains(b, q) ==> Contains(r, q)
    ensures r.min.x == b.min.x || r.min.x == p.x
    ensures r.min.y == b.min.y || r.min.y == p.y
    ensures r.max.x == b.max.x || r.max.x == p.x
    ensures r.max.y == b.max.y || r.max.y == p.y
  {
    var b := if p.x < b.min.x then b.(min := b.min.(x := p.x)) else b;
    var b := if p.y < b.min.y then b.(min := b.min.(y := p.y)) else b;
    var b := if p.x > b.max.x then b.(max := b.max.(x := p.x)) else b;
    var b := if p.y > b.max.y then b.(max := b.max.(y := p.y)) else b;
    b
  }

  /** Each coordinate of `r`'s corners is taken from `b` or from a point of `ps`. */
  predicate Attained(r: BoundRect, b: BoundRect, ps: seq<Vec2.Vector2>) {
    && (r.min.x == b.min.x || exists i :: 0 <= i < |ps| && r.min.x == ps[i].x)
    && (r.min.y == b.min.y || exists i :: 0 <= i < |ps| && r.min.y == ps[i].y)
    && (r.max.x == b.max.x || exists i :: 0 <= i < |ps| && r.max.x == ps[i].x)
    && (r.max.y == b.max.y || exists i :: 0 <= i < |ps| && r.max.y == ps[i].y)
  }

  /** The scan over the remaining points: the result takes in `b` and every
      point of `ps`, and each of its coordinates comes from one of them. */
  function Scan(b: BoundRect, ps: seq<Vec2.Vector2>): (r: BoundRect)
    ensures forall q :: Contains(b, q) ==> Contains(r, q)
    ensures forall i :: 0 <= i < |ps| ==> Contains(r, ps[i])
    ensures Attained(r, b, ps)
    decreases |ps|
  {
    if ps == [] then b
    else
      var r := Scan(Include(b, ps[0]), ps[1..]);
      assert forall i :: 1 <= i < |ps| ==> ps[i] == ps[1..][i - 1];
      r
  }

  /** Each coordinate of `r`'s corners is a coordinate of some point of `ps`. */
  predicate CornersFrom(r: BoundRect, ps: seq<Vec2.Vector2>) {
    && (exists i :: 0 <= i < |ps| && r.min.x == ps[i].x)
    && (exists i :: 0 <= i < |ps| && r.min.y == ps[i].y)
    && (exists i :: 0 <= i < |ps| && r.max.x == ps[i].x)
    && (exists i :: 0 <= i < |ps| && r.max.y == ps[i].y)
  }

  /** `from_points`: `None` for no points; otherwise a box holding all of
      them whose corner coordinates are coordinates of the points, so it is
      the smallest such box. */
  function FromPoints(points: seq<Vec2.Vector2>): (r: Option<BoundRect>)
    ensures r.None? <==> points == []
    ensures r.Some? ==> forall i :: 0 <= i < |points| ==> Contains(r.value, points[i])
    ensures r.Some? ==> CornersFrom(r.value, points)
  {
    if points == [] then None
    else
      var pf := points[0];
      var r := Scan(BoundRect(pf, pf), points[1..]);
      assert forall i :: 1 <= i < |points| ==> points[i] == points[1..][i - 1];
      Some(r)
  }

  /** Any box that holds all the points holds the box `from_points` builds. */
  lemma FromPointsSmallest(points: seq<Vec2.Vector2>, c: BoundRect)
    requires forall i :: 0 <= i < |points| ==> Contains(c, points[i])
    ensures FromPoints(points).Some? ==>
              forall q :: Contains(FromPoints(points).value, q) ==> Contains(c, q)
  {
    if points != [] {
      var r := FromPoints(points).value;
      var i0 :| 0 <= i0 < |points| && r.min.x == points[i0].x;
      var i1 :| 0 <= i1 < |points| && r.min.y == points[i1].y;
      var i2 :| 0 <= i2 < |points| && r.max.x == points[i2].x;
      var i3 :| 0 <= i3 < |points| && r.max.y == points[i3].y;
      assert Contains(c, points[i0]) && Contains(c, points[i1]);
      assert Contains(c, points[i2]) && Contains(c, points[i3]);
    }
  }

  /** A single point gives a degenerate box with both corners at the point. */
  lemma FromSinglePoint(p: Vec2.Vector2)
    ensures FromPoints([p]) == Some(BoundRect(p, p))
    ensures IsEmpty(FromPoints([p]).value)
  {
  }

  /** The least of three coordinates. */
  function Min3(a: real, b: real, c: real): real {
    if a <= b && a <= c then a else if b <= c then b else c
  }

  /** The greatest of three coordinates. */
  function Max3(a: real, b: real, c: real): real {
    if a >= b && a >= c then a else if b >= c then b else c
  }

  /** The box of three points (as `render` builds for a triangle) spans
      from their least to their greatest coordinates. */
  lemma FromThreePoints(a: Vec2.Vector2, b: Vec2.Vector2, c: Vec2.Vector2)
    ensures FromPoints([a, b, c]).Some?
    ensures FromPoints([a, b, c]).value.min == Vec2.Vector2(Min3(a.x, b.x, c.x), Min3(a.y, b.y, c.y))
    ensures FromPoints([a, b, c]).value.max == Vec2.Vector2(Max3(a.x, b.x, c.x), Max3(a.y, b.y, c.y))
  {
    var ps := [a, b, c];
    var r := FromPoints(ps).value;
    assert Contains(r, ps[0]) && Contains(r, ps[1]) && Contains(r, ps[2]);
    var i1 :| 0 <= i1 < |ps| && r.min.x == ps[i1].x;
    var i2 :| 0 <= i2 < |ps| && r.min.y == ps[i2].y;
    var i3 :| 0 <= i3 < |ps| && r.max.x == ps[i3].x;
    var i4 :| 0 <= i4 < |ps| && r.max.y == ps[i4].y;
  }

  /** `intersection`: the larger of the two minima and the smaller of the
      two maxima on each axis, so it holds exactly the points that both
      operands hold, and lies within both. */
  function Intersection(a: BoundRect, b: BoundRect): (r: BoundRect)
    ensures forall p :: Contains(r, p) <==> Contains(a, p) && Contains(b, p)
    ensures a.min.x <= r.min.x && b.min.x <= r.min.x && a.min.y <= r.min.y && b.min.y <= r.min.y
    ensures r.max.x <= a.max.x && r.max.x <= b.max.x && r.max.y <= a.max.y && r.max.y <= b.max.y
    ensures (r.min.x == a.min.x || r.min.x == b.min.x) && (r.min.y == a.min.y || r.min.y == b.min.y)
    ensures (r.max.x == a.max.x || r.max.x == b.max.x) && (r.max.y == a.max.y || r.max.y == b.max.y)
  {
    var xmin := if a.min.x < b.min.x then b.min.x else a.min.x;
    var ymin := if a.min.y < b.min.y then b.min.y else a.min.y;
    var xmax := if a.max.x > b.max.x then b.max.x else a.max.x;
    var ymax := if a.max.y > b.max.y then b.max.y else a.max.y;
    FromBounds(xmin, ymin, xmax, ymax)
  }

  lemma IntersectionCommutative(a: BoundRect, b: BoundRect)
    ensures Intersection(a, b) == Intersection(b, a)
  {
  }

  lemma IntersectionIdempotent(a: BoundRect)
    ensures Intersection(a, a) == a
  {
  }

  /** `is_empty`: a box is empty unless it has a point strictly inside,
      so a box of zero width or zero height is empty. */
  function IsEmpty(b: BoundRect): (r: bool)
    ensures !r <==> exists p :: Interior(b, p)
    ensures b.min.x == b.max.x || b.min.y == b.max.y ==> r
  {
    var e := !(b.min.x < b.max.x && b.min.y < b.max.y);
    if !e then
      var mid := Vec2.Vector2((b.min.x + b.max.x) / 2.0, (b.min.y + b.max.y) / 2.0);
      assert Interior(b, mid);
      e
    else
      e
  }
}

=== FILE: color.dfy ===
/** 8-bit RGBA colours and the quantisation of a real-valued colour vector
    into one: each component is scaled by 255, clamped to [0, 255] and
    truncated to an integer. */
module Colors {

  import Vec4

  type Byte = x: int | 0 <= x < 256

  datatype Color = Color(r: Byte, g: Byte, b: Byte, a: Byte)

  /** `num::clamp`: `lo` below the range, `hi` above it, `x` within it. */
  function Clamp(x: real, lo: real, hi: real): (r: real)
    requires lo <= hi
    ensures lo <= r <= hi
    ensures lo <= x <= hi ==> r == x
    ensures x < lo ==> r == lo
    ensures x > hi ==> r == hi
  {
    if x < lo then lo else if x > hi then hi else x
  }

  /** `ch` is the channel for component `x`: saturated at 255 from 1 up, at
      0 from 0 down, and in between the largest byte not above `x * 255`. */
  predicate Quantizes(x: real, ch: Byte) {
    && (x >= 1.0 ==> ch == 255)
    && (x <= 0.0 ==> ch == 0)
    && (0.0 <= x <= 1.0 ==> ch as real <= x * 255.0 < ch as real + 1.0)
  }

  /** One channel: `clamp(x * 255, 0, 255) as u8`. The cast truncates, and on
      the clamped (nonnegative) value truncation is the floor. */
  function Quantize(x: real): (r: Byte)
    ensures Quantizes(x, r)
  {
    Clamp(x * 255.0, 0.0, 255.0).Floor
  }

  /** `vec4_to_color`: the channels r, g, b, a quantise x, y, z, w. */
  function Vec4ToColor(v: Vec4.Vector4): (c: Color)
    ensures Quantizes(v.x, c.r) && Quantizes(v.y, c.g)
    ensures Quantizes(v.z, c.b) && Quantizes(v.w, c.a)
  {
    Color(Quantize(v.x), Quantize(v.y), Quantize(v.z), Quantize(v.w))
  }

  /** At most one byte quantises a component, so `Quantizes` pins the
      channel down completely. */
  lemma QuantizesUnique(x: real, c1: Byte, c2: Byte)
    requires Quantizes(x, c1) && Quantizes(x, c2)
    ensures c1 == c2
  {
  }

  /** A larger component never gives a smaller channel. */
  lemma QuantizeMonotone(x: real, y: real)
    requires x <= y
    ensures Quantize(x) <= Quantize(y)
  {
  }

  /** Each channel depends on its own component and on nothing else. */
  lemma ChannelsIndependent(u: Vec4.Vector4, v: Vec4.Vector4)
    ensures u.x == v.x ==> Vec4ToColor(u).r == Vec4ToColor(v).r
    ensures u.y == v.y ==> Vec4ToColor(u).g == Vec4ToColor(v).g
    ensures u.z == v.z ==> Vec4ToColor(u).b == Vec4ToColor(v).b
    ensures u.w == v.w ==> Vec4ToColor(u).a == Vec4ToColor(v).a
  {
  }

  /** Quantisation truncates rather than rounds: half intensity is 127, and
      components outside [0, 1] saturate. */
  lemma QuantizeExamples()
    ensures Quantize(0.5) == 127
    ensures Vec4ToColor(Vec4.Vector4(1.5, -0.5, 0.5, 1.0)) == Color(255, 0, 127, 255)
  {
  }
}

=== FILE: mat4.dfy ===
/** Row-major 4x4 matrices over exact reals: the named constructors, the
    product with a matrix and with a homogeneous vector, the transpose and the
    homogeneous point transform with its perspective divide. The entry
    `eRC` sits in row R and column C. */
module Mat4 {

  import Reals
  import Vec3
  import Vec4

  datatype Matrix4 = Matrix4(
    e11: real, e12: real, e13: real, e14: real,
    e21: real, e22: real, e23: real, e24: real,
    e31: real, e32: real, e33: real, e34: real,
    e41: real, e42: real, e43: real, e44: real)

  /** Row `i` (1-based) of `m`, as a homogeneous vector. */
  function Row(m: Matrix4, i: nat): Vec4.Vector4
    requires 1 <= i <= 4
  {
    if i == 1 then Vec4.Vector4(m.e11, m.e12, m.e13, m.e14)
    else if i == 2 then Vec4.Vector4(m.e21, m.e22, m.e23, m.e24)
    else if i == 3 then Vec4.Vector4(m.e31, m.e32, m.e33, m.e34)
    else Vec4.Vector4(m.e41, m.e42, m.e43, m.e44)
  }

  /** Column `j` (1-based) of `m`, as a homogeneous vector. */
  function Col(m: Matrix4, j: nat): Vec4.Vector4
    requires 1 <= j <= 4
  {
    if j == 1 then Vec4.Vector4(m.e11, m.e21, m.e31, m.e41)
    else if j == 2 then Vec4.Vector4(m.e12, m.e22, m.e32, m.e42)
    else if j == 3 then Vec4.Vector4(m.e13, m.e23, m.e33, m.e43)
    else Vec4.Vector4(m.e14, m.e24, m.e34, m.e44)
  }

  function Dot(a: Vec4.Vector4, b: Vec4.Vector4): real {
    a.x * b.x + a.y * b.y + a.z * b.z + a.w * b.w
  }

  /** The transpose swaps rows and columns. */
  function Transpose(m: Matrix4): (r: Matrix4)
    ensures forall i :: 1 <= i <= 4 ==> Row(r, i) == Col(m, i)
    ensures forall j :: 1 <= j <= 4 ==> Col(r, j) == Row(m, j)
  {
    Matrix4(
      m.e11, m.e21, m.e31, m.e41,
      m.e12, m.e22, m.e32, m.e42,
      m.e13, m.e23, m.e33, m.e43,
      m.e14, m.e24, m.e34, m.e44)
  }

  function Identity(): Matrix4 {
    Matrix4(
      1.0, 0.0, 0.0, 0.0,
      0.0, 1.0, 0.0, 0.0,
      0.0, 0.0, 1.0, 0.0,
      0.0, 0.0, 0.0, 1.0)
  }

  /** Scales x, y and z by the components of `s`. */
  function Scaling(s: Vec3.Vector3): Matrix4 {
    Matrix4(
      s.x, 0.0, 0.0, 0.0,
      0.0, s.y, 0.0, 0.0,
      0.0, 0.0, s.z, 0.0,
      0.0, 0.0, 0.0, 1.0)
  }

  /** Moves points by `pos`. */
  function Translation(pos: Vec3.Vector3): Matrix4 {
    Matrix4(
      1.0, 0.0, 0.0, pos.x,
      0.0, 1.0, 0.0, pos.y,
      0.0, 0.0, 1.0, pos.z,
      0.0, 0.0, 0.0, 1.0)
  }

  /** Scaling about the pivot `pos` rather than about the origin. */
  function ScalingAround(s: Vec3.Vector3, pos: Vec3.Vector3): Matrix4 {
    Mul(Mul(Translation(pos), Scaling(s)), Translation(Vec3.Neg(pos)))
  }

  /** The perspective projection for a view plane of the given size and the
      given far and near distances; its bottom row sends `w` to `-z`. */
  function Perspective(width: real, height: real, far: real, near: real): (r: Matrix4)
    requires width != 0.0 && height != 0.0 && far != near
    ensures Row(r, 4) == Vec4.Vector4(0.0, 0.0, -1.0, 0.0)
  {
    Matrix4(
      (2.0 * near) / width, 0.0, 0.0, 0.0,
      0.0, (2.0 * near) / height, 0.0, 0.0,
      0.0, 0.0, -(far + near) / (far - near), -(2.0 * far * near) / (far - near),
      0.0, 0.0, -1.0, 0.0)
  }

  /** The matrix product: entry (i, j) is row i of `a` dotted with column j
      of `b`. */
  function Mul(a: Matrix4, b: Matrix4): Matrix4 {
    Matrix4(
      a.e11 * b.e11 + a.e12 * b.e21 + a.e13 * b.e31 + a.e14 * b.e41,
      a.e11 * b.e12 + a.e12 * b.e22 + a.e13 * b.e32 + a.e14 * b.e42,
      a.e11 * b.e13 + a.e12 * b.e23 + a.e13 * b.e33 + a.e14 * b.e43,
      a.e11 * b.e14 + a.e12 * b.e24 + a.e13 * b.e34 + a.e14 * b.e44,

      a.e21 * b.e11 + a.e22 * b.e21 + a.e23 * b.e31 + a.e24 * b.e41,
      a.e21 * b.e12 + a.e22 * b.e22 + a.e23 * b.e32 + a.e24 * b.e42,
      a.e21 * b.e13 + a.e22 * b.e23 + a.e23 * b.e33 + a.e24 * b.e43,
      a.e21 * b.e14 + a.e22 * b.e24 + a.e23 * b.e34 + a.e24 * b.e44,

      a.e31 * b.e11 + a.e32 * b.e21 + a.e33 * b.e31 + a.e34 * b.e41,
      a.e31 * b.e12 + a.e32 * b.e22 + a.e33 * b.e32 + a.e34 * b.e42,
      a.e31 * b.e13 + a.e32 * b.e23 + a.e33 * b.e33 + a.e34 * b.e43,
      a.e31 * b.e14 + a.e32 * b.e24 + a.e33 * b.e34 + a.e34 * b.e44,

      a.e41 * b.e11 + a.e42 * b.e21 + a.e43 * b.e31 + a.e44 * b.e41,
      a.e41 * b.e12 + a.e42 * b.e22 + a.e43 * b.e32 + a.e44 * b.e42,
      a.e41 * b.e13 + a.e42 * b.e23 + a.e43 * b.e33 + a.e44 * b.e43,
      a.e41 * b.e14 + a.e42 * b.e24 + a.e43 * b.e34 + a.e44 * b.e44)
  }

  /** The matrix-vector product: component i is row i dotted with `v`. */
  function MulVec(m: Matrix4, v: Vec4.Vector4): Vec4.Vector4 {
    Vec4.Vector4(
      m.e11 * v.x + m.e12 * v.y + m.e13 * v.z + m.e14 * v.w,
      m.e21 * v.x + m.e22 * v.y + m.e23 * v.z + m.e24 * v.w,
      m.e31 * v.x + m.e32 * v.y + m.e33 * v.z + m.e34 * v.w,
      m.e41 * v.x + m.e42 * v.y + m.e43 * v.z + m.e44 * v.w)
  }

  /** `*self = *self * rhs`. */
  method MulAssign(m: Matrix4, rhs: Matrix4) returns (m': Matrix4)
    ensures m' == Mul(m, rhs)
  {
    m' := Mul(m, rhs);
  }

  /** A point in homogeneous coordinates, `w = 1`. */
  function Lift(p: Vec3.Vector3): Vec4.Vector4 {
    Vec4.Vector4(p.x, p.y, p.z, 1.0)
  }

  /** Whether `transform` can divide by the `w` it computes for `p`. */
  predicate Transformable(m: Matrix4, p: Vec3.Vector3) {
    MulVec(m, Lift(p)).w != 0.0
  }

  /** Maps the point through `m` and divides by the resulting `w`: scaling
      the result back by `w` gives the first three coordinates of `m * p`. */
  function Transform(m: Matrix4, p: Vec3.Vector3): (r: Vec3.Vector3)
    requires Transformable(m, p)
    ensures Vec3.MulScalar(r, MulVec(m, Lift(p)).w) == Vec4.Truncate(MulVec(m, Lift(p)))
  {
    var v := MulVec(m, Lift(p));
    Vec3.DivScalar(Vec4.Truncate(v), v.w)
  }

  // Algebraic laws.

  /** Column j of a product is the left factor applied to column j of the
      right factor. */
  lemma MulColumn(a: Matrix4, b: Matrix4, j: nat)
    requires 1 <= j <= 4
    ensures Col(Mul(a, b), j) == MulVec(a, Col(b, j))
  {
    if j == 1 {
      MulColumn1(a, b);
    } else if j == 2 {
      MulColumn2(a, b);
    } else if j == 3 {
      MulColumn3(a, b);
    } else {
      MulColumn4(a, b);
    }
  }

  lemma MulColumn1(a: Matrix4, b: Matrix4)
    ensures Col(Mul(a, b), 1) == MulVec(a, Vec4.Vector4(b.e11, b.e21, b.e31, b.e41))
  {
  }

  lemma MulColumn2(a: Matrix4, b: Matrix4)
    ensures Col(Mul(a, b), 2) == MulVec(a, Vec4.Vector4(b.e12, b.e22, b.e32, b.e42))
  {
  }

  lemma MulColumn3(a: Matrix4, b: Matrix4)
    ensures Col(Mul(a, b), 3) == MulVec(a, Vec4.Vector4(b.e13, b.e23, b.e33, b.e43))
  {
  }

  lemma MulColumn4(a: Matrix4, b: Matrix4)
    ensures Col(Mul(a, b), 4) == MulVec(a, Vec4.Vector4(b.e14, b.e24, b.e34, b.e44))
  {
  }

  lemma TransposeInvolution(m: Matrix4)
    ensures Transpose(Transpose(m)) == m
  {
  }

  lemma TransposeOfProduct(a: Matrix4, b: Matrix4)
    ensures Transpose(Mul(a, b)) == Mul(Transpose(b), Transpose(a))
  {
  }

  lemma IdentityUnit(m: Matrix4)
    ensures Mul(Identity(), m) == m
    ensures Mul(m, Identity()) == m
    ensures forall v :: MulVec(Identity(), v) == v
  {
  }

  /** Applying a product is applying its factors in turn. */
  lemma MulVecComposes(a: Matrix4, b: Matrix4, v: Vec4.Vector4)
    ensures MulVec(Mul(a, b), v) == MulVec(a, MulVec(b, v))
  {
    RowComposes(Row(a, 1), b, v);
    RowComposes(Row(a, 2), b, v);
    RowComposes(Row(a, 3), b, v);
    RowComposes(Row(a, 4), b, v);
  }

  /** One row of `MulVecComposes`: the row `r` times `b`, dotted with `v`,
      is `r` dotted with `b * v`. */
  lemma RowComposes(r: Vec4.Vector4, b: Matrix4, v: Vec4.Vector4)
    ensures Dot(Vec4.Vector4(Dot(r, Col(b, 1)), Dot(r, Col(b, 2)), Dot(r, Col(b, 3)), Dot(r, Col(b, 4))), v)
         == Dot(r, MulVec(b, v))
  {
    Distributes(v.x, r.x * b.e11, r.y * b.e21, r.z * b.e31, r.w * b.e41);
    Distributes(v.y, r.x * b.e12, r.y * b.e22, r.z * b.e32, r.w * b.e42);
    Distributes(v.z, r.x * b.e13, r.y * b.e23, r.z * b.e33, r.w * b.e43);
    Distributes(v.w, r.x * b.e14, r.y * b.e24, r.z * b.e34, r.w * b.e44);
    Distributes(r.x, b.e11 * v.x, b.e12 * v.y, b.e13 * v.z, b.e14 * v.w);
    Distributes(r.y, b.e21 * v.x, b.e22 * v.y, b.e23 * v.z, b.e24 * v.w);
    Distributes(r.z, b.e31 * v.x, b.e32 * v.y, b.e33 * v.z, b.e34 * v.w);
    Distributes(r.w, b.e41 * v.x, b.e42 * v.y, b.e43 * v.z, b.e44 * v.w);
    calc {
      Dot(Vec4.Vector4(Dot(r, Col(b, 1)), Dot(r, Col(b, 2)), Dot(r, Col(b, 3)), Dot(r, Col(b, 4))), v);
    ==
      (r.x * b.e11 + r.y * b.e21 + r.z * b.e31 + r.w * b.e41) * v.x
      + (r.x * b.e12 + r.y * b.e22 + r.z * b.e32 + r.w * b.e42) * v.y
      + (r.x * b.e13 + r.y * b.e23 + r.z * b.e33 + r.w * b.e43) * v.z
      + (r.x * b.e14 + r.y * b.e24 + r.z * b.e34 + r.w * b.e44) * v.w;
    ==
      r.x * b.e11 * v.x + r.y * b.e21 * v.x + r.z * b.e31 * v.x + r.w * b.e41 * v.x
      + r.x * b.e12 * v.y + r.y * b.e22 * v.y + r.z * b.e32 * v.y + r.w * b.e42 * v.y
      + r.x * b.e13 * v.z + r.y * b.e23 * v.z + r.z * b.e33 * v.z + r.w * b.e43 * v.z
      + r.x * b.e14 * v.w + r.y * b.e24 * v.w + r.z * b.e34 * v.w + r.w * b.e44 * v.w;
    ==
      r.x * (b.e11 * v.x) + r.x * (b.e12 * v.y) + r.x * (b.e13 * v.z) + r.x * (b.e14 * v.w)
      + r.y * (b.e21 * v.x) + r.y * (b.e22 * v.y) + r.y * (b.e23 * v.z) + r.y * (b.e24 * v.w)
      + r.z * (b.e31 * v.x) + r.z * (b.e32 * v.y) + r.z * (b.e33 * v.z) + r.z * (b.e34 * v.w)
      + r.w * (b.e41 * v.x) + r.w * (b.e42 * v.y) + r.w * (b.e43 * v.z) + r.w * (b.e44 * v.w);
    ==
      r.x * (b.e11 * v.x + b.e12 * v.y + b.e13 * v.z + b.e14 * v.w)
      + r.y * (b.e21 * v.x + b.e22 * v.y + b.e23 * v.z + b.e24 * v.w)
      + r.z * (b.e31 * v.x + b.e32 * v.y + b.e33 * v.z + b.e34 * v.w)
      + r.w * (b.e41 * v.x + b.e42 * v.y + b.e43 * v.z + b.e44 * v.w);
    ==
      Dot(r, MulVec(b, v));
    }
  }

  lemma Distributes(k: real, a: real, b: real, c: real, d: real)
    ensures (a + b + c + d) * k == a * k + b * k + c * k + d * k
    ensures k * (a + b + c + d) == k * a + k * b + k * c + k * d
  {
  }

  /** Two matrices with the same four columns are equal. */
  lemma ColumnsDetermine(m: Matrix4, n: Matrix4)
    requires forall j :: 1 <= j <= 4 ==> Col(m, j) == Col(n, j)
    ensures m == n
  {
    assert Col(m, 1) == Col(n, 1) && Col(m, 2) == Col(n, 2);
    assert Col(m, 3) == Col(n, 3) && Col(m, 4) == Col(n, 4);
  }

  lemma MulAssociative(a: Matrix4, b: Matrix4, c: Matrix4)
    ensures Mul(Mul(a, b), c) == Mul(a, Mul(b, c))
  {
    forall j | 1 <= j <= 4
      ensures Col(Mul(Mul(a, b), c), j) == Col(Mul(a, Mul(b, c)), j)
    {
      MulColumn(Mul(a, b), c, j);
      MulVecComposes(a, b, Col(c, j));
      MulColumn(b, c, j);
      MulColumn(a, Mul(b, c), j);
    }
    ColumnsDetermine(Mul(Mul(a, b), c), Mul(a, Mul(b, c)));
  }

  // The homogeneous transform through the named constructors.

  lemma TransformIdentity(p: Vec3.Vector3)
    ensures Transformable(Identity(), p)
    ensures Transform(Identity(), p) == p
  {
  }

  lemma TransformTranslation(t: Vec3.Vector3, p: Vec3.Vector3)
    ensures Transformable(Translation(t), p)
    ensures Transform(Translation(t), p) == Vec3.Add(p, t)
  {
  }

  lemma TransformScaling(s: Vec3.Vector3, p: Vec3.Vector3)
    ensures Transformable(Scaling(s), p)
    ensures Transform(Scaling(s), p) == Vec3.Mul(s, p)
  {
  }

  /** Scaling about a pivot scales the offset from the pivot, so the pivot
      itself stays where it is. */
  lemma TransformScalingAround(s: Vec3.Vector3, pos: Vec3.Vector3, p: Vec3.Vector3)
    ensures Transformable(ScalingAround(s, pos), p)
    ensures Transform(ScalingAround(s, pos), p) == Vec3.Add(Vec3.Mul(s, Vec3.Sub(p, pos)), pos)
    ensures Transform(ScalingAround(s, pos), pos) == pos
  {
  }

  /** Through the perspective matrix, `w` becomes `-z`, so x, y and z are
      divided by `-z`. */
  lemma TransformPerspective(width: real, height: real, far: real, near: real, p: Vec3.Vector3)
    requires width != 0.0 && height != 0.0 && far != near && p.z != 0.0
    ensures MulVec(Perspective(width, height, far, near), Lift(p)).w == -p.z
    ensures Transformable(Perspective(width, height, far, near), p)
    ensures Transform(Perspective(width, height, far, near), p)
         == Vec3.Vector3(
              (2.0 * near) / width * p.x / -p.z,
              (2.0 * near) / height * p.y / -p.z,
              (-(far + near) / (far - near) * p.z - (2.0 * far * near) / (far - near)) / -p.z)
  {
    var m := Perspective(width, height, far, near);
    var v := MulVec(m, Lift(p));
    assert v.x == (2.0 * near) / width * p.x;
    assert v.y == (2.0 * near) / height * p.y;
    assert v.z == -(far + near) / (far - near) * p.z - (2.0 * far * near) / (far - near);
    assert v.w == -p.z;
  }

  /** The depth entries of the perspective matrix map the near plane
      `z = -near` to depth -1 and the far plane `z = -far` to depth 1. */
  lemma PerspectiveDepth(width: real, height: real, far: real, near: real, p: Vec3.Vector3)
    requires width != 0.0 && height != 0.0 && far != near && near != 0.0 && far != 0.0
    ensures p.z == -near || p.z == -far ==> Transformable(Perspective(width, height, far, near), p)
    ensures p.z == -near ==> Transform(Perspective(width, height, far, near), p).z == -1.0
    ensures p.z == -far ==> Transform(Perspective(width, height, far, near), p).z == 1.0
  {
    var m := Perspective(width, height, far, near);
    if p.z == -near {
      assert Transformable(m, p) && Transform(m, p).z == -1.0 by {
        PerspectiveDepthTerm(width, height, far, near, p);
        DepthAtNear(far, near, p.z);
      }
    }
    if p.z == -far {
      assert Transformable(m, p) && Transform(m, p).z == 1.0 by {
        PerspectiveDepthTerm(width, height, far, near, p);
        DepthAtFar(far, near, p.z);
      }
    }
  }

  /** The normalised depth that `Perspective` gives a point at eye depth
      `z`, after the divide by `w = -z`. */
  function EyeDepth(far: real, near: real, z: real): real
    requires far != near && z != 0.0
  {
    (-(far + near) / (far - near) * z - (2.0 * far * near) / (far - near)) / -z
  }

  /** The depth coordinate of a point seen through the perspective matrix. */
  lemma PerspectiveDepthTerm(width: real, height: real, far: real, near: real, p: Vec3.Vector3)
    requires width != 0.0 && height != 0.0 && far != near && p.z != 0.0
    ensures Transformable(Perspective(width, height, far, near), p)
    ensures Transform(Perspective(width, height, far, near), p).z == EyeDepth(far, near, p.z)
  {
    TransformPerspective(width, height, far, near, p);
  }

  /** The perspective divide sends eye depth `-near` to -1. */
  lemma DepthAtNear(far: real, near: real, z: real)
    requires far != near && near != 0.0 && z == -near
    ensures EyeDepth(far, near, z) == -1.0
  {
    DepthAtEye(far, near, z, near, -near * (far - near));
    Reals.DivLaws(-near, 0.0, far - near);
    Reals.Subst(0.0, near, near, (-near * (far - near)) / (far - near), -near);
    Reals.DivLaws(0.0, 0.0, near);
  }

  /** The perspective divide sends eye depth `-far` to 1. */
  lemma DepthAtFar(far: real, near: real, z: real)
    requires far != near && far != 0.0 && z == -far
    ensures EyeDepth(far, near, z) == 1.0
  {
    DepthAtEye(far, near, z, far, far * (far - near));
    Reals.DivLaws(far, 0.0, far - near);
    Reals.Subst(0.0, far, far, (far * (far - near)) / (far - near), far);
    Reals.DivLaws(0.0, 0.0, far);
  }

  /** At eye depth `z = -e` the divided depth is `(n / (far - near)) / e`,
      where `n` is the numerator's value times `far - near`. */
  lemma DepthAtEye(far: real, near: real, z: real, e: real, n: real)
    requires far != near && e != 0.0 && z == -e
    requires n == (far + near) * e - 2.0 * far * near
    ensures EyeDepth(far, near, z) == (n / (far - near)) / e
  {
    var d := far - near;
    var k := -(far + near) / d;
    var q := (2.0 * far * near) / d;
    DepthAt(far, near, e, n);
    Reals.Subst(k, z, -e, 0.0, 0.0);
    Reals.Subst(0.0, -z, e, k * z - q, k * -e - q);
  }

  /** `DepthAtEye` with the eye depth written as `-e`: the two depth
      entries combine over the common denominator `far - near`. */
  lemma DepthAt(far: real, near: real, e: real, n: real)
    requires far != near && e != 0.0
    requires n == (far + near) * e - 2.0 * far * near
    ensures (-(far + near) / (far - near) * -e - (2.0 * far * near) / (far - near)) / e
         == (n / (far - near)) / e
  {
    var d := far - near;
    var q := (far + near) / d;
    Reals.DivLaws(far + near, e, d);
    Reals.DivLaws((far + near) * e, 2.0 * far * near, d);
    calc {
      -(far + near) / d * -e;
    ==
      -q * -e;
    ==
      q * e;
    ==
      ((far + near) * e) / d;
    }
  }
}

=== FILE: options.dfy ===
/** An optional value, for the operations that may have nothing to return. */
module Options {

  datatype Option<T> = None | Some(value: T)
}

=== FILE: reals.dfy ===
/** Sign facts about products of reals, shared by the vector modules.
    Each fact is stated about a value `sq` that the caller passes as the
    product itself, so the caller only needs the linear consequences. */
module Reals {

  /** A square is never negative, and is zero exactly when its root is. */
  lemma SquareSign(a: real, sq: real)
    requires sq == a * a
    ensures sq >= 0.0
    ensures sq == 0.0 <==> a == 0.0
  {
    if a != 0.0 {
      calc {
        sq;
      ==
        a * a;
      >
        0.0;
      }
    } else {
      calc {
        sq;
      ==
        a * a;
      ==
        0.0;
      }
    }
  }

  /** Division laws for a nonzero divisor, in the shape the projection
      proofs use them. */
  lemma DivLaws(a: real, b: real, d: real)
    requires d != 0.0
    ensures (-a) / d == -(a / d)
    ensures a / d * b == (a * b) / d
    ensures a / d - b / d == (a - b) / d
    ensures (a * d) / d == a
    ensures d / d == 1.0 && (-d) / d == -1.0
  {
  }

  /** Equal factors and equal quotients may be exchanged inside a product
      or a quotient. */
  lemma Subst(x: real, a: real, b: real, y1: real, y2: real)
    requires a != 0.0 && a == b && y1 == y2
    ensures x * a == x * b
    ensures y1 / a == y2 / b
  {
  }
}

=== FILE: renderer.dfy ===
/** The software renderer: a row-major framebuffer of `width * height`
    colours, its clear and pixel accessors, and `render`, which projects each
    triangle to the screen, culls it if it faces away, and fills the pixels
    whose centres its normalised, depth-weighted barycentric weights cover.

    `render` is given twice: `RenderFrame` says pointwise what the framebuffer
    becomes, and the method `Render` performs the source's loops over
    triangles, rows and columns; its postcondition is that the two agree. */
module Renderers {

  import opened Options
  import Vec2
  import Vec3
  import Vec4
  import Mat4
  import BoundRects
  import Colors

  datatype Vertex = Vertex(position: Vec3.Vector3, color: Vec4.Vector4)

  datatype Triangle = Triangle(a: Vertex, b: Vertex, c: Vertex)

  datatype Renderer = Renderer(
    width: nat,
    height: nat,
    framebuffer: seq<Colors.Color>,
    perspective: Mat4.Matrix4)

  /** The framebuffer holds one colour per pixel. */
  predicate Valid(r: Renderer) {
    |r.framebuffer| == r.width * r.height
  }

  const Black := Colors.Color(0, 0, 0, 255)

  // ---------------------------------------------------------------------
  // Row-major indexing

  lemma MulNonneg(a: int, b: int)
    requires a >= 0 && b >= 0
    ensures a * b >= 0
  {
  }

  /** Stepping a factor up by one adds at least one copy of `w`. */
  lemma MulStep(a: int, b: int, w: nat)
    requires a < b
    ensures a * w + w <= b * w
  {
    MulNonneg(b - a - 1, w);
    assert (b - a - 1) * w == b * w - a * w - w;
  }

  /** Every on-screen pixel has an index inside the framebuffer. */
  lemma IndexInRange(w: nat, h: nat, x: nat, y: nat)
    requires x < w && y < h
    ensures y * w + x < w * h
  {
    MulStep(y, h, w);
  }

  /** The index `y * w + x` of a pixel with `x < w` gives back its column and
      row, so distinct on-screen pixels have distinct indices. */
  lemma IndexSplit(w: nat, x: nat, y: nat)
    requires x < w
    ensures (y * w + x) / w == y
    ensures (y * w + x) % w == x
  {
    var i := y * w + x;
    var q, r := i / w, i % w;
    assert i == q * w + r && 0 <= r < w;
    if q > y {
      MulStep(y, q, w);
      assert false;
    } else if q < y {
      MulStep(q, y, w);
      assert false;
    }
  }

  // ---------------------------------------------------------------------
  // Construction and the framebuffer accessors

  /** `Renderer::new` for a field of view whose half-angle tangent is
      `scale`: a `width * height` framebuffer of opaque black and the
      perspective matrix for a `2 * scale` view plane at near 1, far -1. */
  function New(width: nat, height: nat, scale: real): (r: Renderer)
    requires scale != 0.0
    ensures Valid(r) && r.width == width && r.height == height
    ensures forall i :: 0 <= i < |r.framebuffer| ==> r.framebuffer[i] == Black
    ensures Mat4.Row(r.perspective, 4) == Vec4.Vector4(0.0, 0.0, -1.0, 0.0)
  {
    Renderer(
      width, height,
      seq(width * height, _ => Black),
      Mat4.Perspective(scale * 2.0, scale * 2.0, -1.0, 1.0))
  }

  /** `clear`: overwrite every framebuffer entry with `color`, one at a time. */
  method Clear(r: Renderer, color: Colors.Color) returns (r': Renderer)
    ensures r'.width == r.width && r'.height == r.height && r'.perspective == r.perspective
    ensures |r'.framebuffer| == |r.framebuffer|
    ensures forall i :: 0 <= i < |r'.framebuffer| ==> r'.framebuffer[i] == color
  {
    var fb := r.framebuffer;
    for i := 0 to |fb|
      invariant |fb| == |r.framebuffer|
      invariant forall j :: 0 <= j < i ==> fb[j] == color
    {
      fb := fb[i := color];
    }
    r' := r.(framebuffer := fb);
  }

  function PixelIndex(r: Renderer, x: nat, y: nat): nat {
    y * r.width + x
  }

  /** `get_pixel`: the colour at index `y * width + x`. */
  function GetPixel(r: Renderer, x: nat, y: nat): Colors.Color
    requires PixelIndex(r, x, y) < |r.framebuffer|
  {
    r.framebuffer[PixelIndex(r, x, y)]
  }

  /** `set_pixel`: `get_pixel` at the same place reads `c` back, and every
      other entry, the dimensions and the matrix are unchanged. */
  function SetPixel(r: Renderer, x: nat, y: nat, c: Colors.Color): (r': Renderer)
    requires PixelIndex(r, x, y) < |r.framebuffer|
    ensures r'.width == r.width && r'.height == r.height && r'.perspective == r.perspective
    ensures |r'.framebuffer| == |r.framebuffer|
    ensures GetPixel(r', x, y) == c
    ensures forall i :: 0 <= i < |r.framebuffer| && i != PixelIndex(r, x, y) ==>
              r'.framebuffer[i] == r.framebuffer[i]
  {
    r.(framebuffer := r.framebuffer[PixelIndex(r, x, y) := c])
  }

  /** For on-screen pixels, a write is seen at its own pixel and at no other. */
  lemma GetAfterSet(r: Renderer, x: nat, y: nat, c: Colors.Color, x': nat, y': nat)
    requires Valid(r) && x < r.width && y < r.height && x' < r.width && y' < r.height
    ensures PixelIndex(r, x, y) < |r.framebuffer| && PixelIndex(r, x', y') < |r.framebuffer|
    ensures GetPixel(SetPixel(r, x, y, c), x', y') ==
              if x == x' && y == y' then c else GetPixel(r, x', y')
  {
    IndexInRange(r.width, r.height, x, y);
    IndexInRange(r.width, r.height, x', y');
    IndexSplit(r.width, x, y);
    IndexSplit(r.width, x', y');
  }

  // ---------------------------------------------------------------------
  // Per-triangle geometry

  /** The screen transform: through `m` with the perspective divide, then
      x and y from [-1, 1] to [0, width] and [0, height]; z is kept. `None`
      when the divide would be by zero. */
  function ToScreen(m: Mat4.Matrix4, width: nat, height: nat, p: Vec3.Vector3): (r: Option<Vec3.Vector3>)
    ensures r.Some? <==> Mat4.Transformable(m, p)
    ensures r.Some? ==> r.value.z == Mat4.Transform(m, p).z
    ensures r.Some? && Mat4.Transform(m, p).x == -1.0 ==> r.value.x == 0.0
    ensures r.Some? && Mat4.Transform(m, p).x == 1.0 ==> r.value.x == width as real
    ensures r.Some? && width > 0 ==> Mat4.Transform(m, p).x == 2.0 * r.value.x / width as real - 1.0
    ensures r.Some? && height > 0 ==> Mat4.Transform(m, p).y == 2.0 * r.value.y / height as real - 1.0
    ensures r.Some? && width == 0 ==> r.value.x == 0.0
    ensures r.Some? && height == 0 ==> r.value.y == 0.0
  {
    if !Mat4.Transformable(m, p) then None
    else
      var v := Mat4.Transform(m, p);
      ScreenAxis(v.x, width as real, (v.x + 1.0) / 2.0 * width as real);
      ScreenAxis(v.y, height as real, (v.y + 1.0) / 2.0 * height as real);
      Some(Vec3.Vector3(
        (v.x + 1.0) / 2.0 * width as real,
        (v.y + 1.0) / 2.0 * height as real,
        v.z))
  }

  /** One screen axis: `[-1, 1]` onto `[0, size]`, undone by the inverse map. */
  lemma ScreenAxis(v: real, size: real, r: real)
    requires size >= 0.0 && r == (v + 1.0) / 2.0 * size
    ensures size > 0.0 ==> v == 2.0 * r / size - 1.0
    ensures size == 0.0 ==> r == 0.0
  {
    var k := (v + 1.0) / 2.0;
    if size > 0.0 {
      calc {
        2.0 * r / size - 1.0;
      ==
        2.0 * (k * size) / size - 1.0;
      ==
        2.0 * k * (size / size) - 1.0;
      ==
        2.0 * k - 1.0;
      ==
        v;
      }
    } else {
      calc {
        r;
      ==
        k * size;
      ==
        k * 0.0;
      ==
        0.0;
      }
    }
  }

  /** Twice the signed area of the triangle `a b c`: positive when the
      vertices run counter-clockwise in screen coordinates. */
  function SignedArea(a: Vec2.Vector2, b: Vec2.Vector2, c: Vec2.Vector2): real {
    Vec2.Cross(Vec2.Sub(b, a), Vec2.Sub(c, a))
  }

  /** The least integer not below `x`. */
  function Ceil(x: real): (r: int)
    ensures x <= r as real < x + 1.0
  {
    -((-x).Floor)
  }

  /** What `render` keeps for a triangle that survives the cull: its three
      screen-space vertices and the pixel range it scans. */
  datatype Setup = Setup(
    a: Vec3.Vector3, b: Vec3.Vector3, c: Vec3.Vector3,
    xmin: nat, ymin: nat, xmax: nat, ymax: nat)

  /** Project, cull and bound one triangle. `None` when a vertex cannot be
      projected, when the triangle does not face the viewer, or when its box
      clipped to the screen is empty. Otherwise the scanned range is a
      nonempty part of the screen and the triangle faces the viewer. */
  function Prepare(width: nat, height: nat, m: Mat4.Matrix4, t: Triangle): (r: Option<Setup>)
    ensures r.Some? ==> r.value.xmin < r.value.xmax <= width && r.value.ymin < r.value.ymax <= height
    ensures r.Some? ==>
              SignedArea(Vec3.Truncate(r.value.a), Vec3.Truncate(r.value.b), Vec3.Truncate(r.value.c)) > 0.0
    ensures r.Some? ==>
              && ToScreen(m, width, height, t.a.position) == Some(r.value.a)
              && ToScreen(m, width, height, t.b.position) == Some(r.value.b)
              && ToScreen(m, width, height, t.c.position) == Some(r.value.c)
  {
    var a := ToScreen(m, width, height, t.a.position);
    var b := ToScreen(m, width, height, t.b.position);
    var c := ToScreen(m, width, height, t.c.position);
    if a.None? || b.None? || c.None? then None
    else
      var a2, b2, c2 := Vec3.Truncate(a.value), Vec3.Truncate(b.value), Vec3.Truncate(c.value);
      if !(SignedArea(a2, b2, c2) > 0.0) then None
      else
        var screen := BoundRects.FromBounds(0.0, 0.0, width as real, height as real);
        var bb := BoundRects.Intersection(BoundRects.FromPoints([a2, b2, c2]).value, screen);
        if BoundRects.IsEmpty(bb) then None
        else Some(Setup(a.value, b.value, c.value, bb.min.x.Floor, bb.min.y.Floor, Ceil(bb.max.x), Ceil(bb.max.y)))
  }

  datatype Weights = Weights(a: real, b: real, c: real)

  function Sum(w: Weights): real {
    w.a + w.b + w.c
  }

  function PixelCentre(x: int, y: int): Vec2.Vector2 {
    Vec2.Vector2(x as real + 0.5, y as real + 0.5)
  }

  /** The unnormalised weights at `p`: the signed half-area of the triangle
      that `p` forms with the edge opposite each vertex, times that vertex's
      depth. */
  function RawWeights(s: Setup, p: Vec2.Vector2): Weights {
    var a, b, c := Vec3.Truncate(s.a), Vec3.Truncate(s.b), Vec3.Truncate(s.c);
    var s1, s2, s3 := Vec2.Sub(b, a), Vec2.Sub(c, b), Vec2.Sub(a, c);
    Weights(
      Vec2.Cross(s2, Vec2.Sub(p, b)) / 2.0 * s.a.z,
      Vec2.Cross(s3, Vec2.Sub(p, c)) / 2.0 * s.b.z,
      Vec2.Cross(s1, Vec2.Sub(p, a)) / 2.0 * s.c.z)
  }

  /** With equal depths the raw weights always add up to the same value,
      the depth times half the signed area, wherever the pixel is. */
  lemma RawWeightsSum(s: Setup, p: Vec2.Vector2)
    requires s.a.z == s.b.z == s.c.z
    ensures Sum(RawWeights(s, p))
         == SignedArea(Vec3.Truncate(s.a), Vec3.Truncate(s.b), Vec3.Truncate(s.c)) / 2.0 * s.a.z
  {
    var a, b, c := Vec3.Truncate(s.a), Vec3.Truncate(s.b), Vec3.Truncate(s.c);
    var s1, s2, s3 := Vec2.Sub(b, a), Vec2.Sub(c, b), Vec2.Sub(a, c);
    var z := s.a.z;
    var ca, cb, cc := Vec2.Cross(s2, Vec2.Sub(p, b)), Vec2.Cross(s3, Vec2.Sub(p, c)), Vec2.Cross(s1, Vec2.Sub(p, a));
    assert ca + cb + cc == SignedArea(a, b, c);
    calc {
      Sum(RawWeights(s, p));
    ==
      ca / 2.0 * z + cb / 2.0 * z + cc / 2.0 * z;
    ==
      (ca + cb + cc) / 2.0 * z;
    ==
      SignedArea(a, b, c) / 2.0 * z;
    }
  }

  /** Divide each weight by their sum. A zero sum gives `None`: in floating
      point every weight would then be NaN or infinite with at least one not
      `>= 0`, so the pixel would be skipped. Otherwise the weights sum to 1 and
      scaling back by the sum recovers the raw weights. */
  function Normalize(w: Weights): (r: Option<Weights>)
    ensures r.None? <==> Sum(w) == 0.0
    ensures r.Some? ==> Sum(r.value) == 1.0
  {
    var sum := Sum(w);
    if sum == 0.0 then None
    else
      calc {
        w.a / sum + w.b / sum + w.c / sum;
      ==
        (w.a + w.b + w.c) / sum;
      ==
        1.0;
      }
      Some(Weights(w.a / sum, w.b / sum, w.c / sum))
  }

  /** The vertex colours mixed by the weights. */
  function Blend(t: Triangle, w: Weights): Vec4.Vector4 {
    Vec4.Add(
      Vec4.Add(Vec4.MulScalar(t.a.color, w.a), Vec4.MulScalar(t.b.color, w.b)),
      Vec4.MulScalar(t.c.color, w.c))
  }

  /** Weights that sum to 1 mix three equal colours into that colour. */
  lemma BlendUniform(t: Triangle, w: Weights)
    requires t.a.color == t.b.color == t.c.color
    requires Sum(w) == 1.0
    ensures Blend(t, w) == t.a.color
  {
    var k := t.a.color;
    BlendComponent(k.x, w);
    BlendComponent(k.y, w);
    BlendComponent(k.z, w);
    BlendComponent(k.w, w);
  }

  lemma BlendComponent(k: real, w: Weights)
    requires Sum(w) == 1.0
    ensures k * w.a + k * w.b + k * w.c == k
  {
    calc {
      k * w.a + k * w.b + k * w.c;
    ==
      k * (w.a + w.b + w.c);
    ==
      k * 1.0;
    }
  }

  /** The colour `render` writes at pixel `(x, y)` of a prepared triangle,
      if any: written only when the normalised weights at the pixel centre
      exist and are all nonnegative, and then it is the quantised blend. */
  function Shade(s: Setup, t: Triangle, x: int, y: int): Option<Colors.Color>
  {
    var w := Normalize(RawWeights(s, PixelCentre(x, y)));
    if w.Some? && w.value.a >= 0.0 && w.value.b >= 0.0 && w.value.c >= 0.0 then
      Some(Colors.Vec4ToColor(Blend(t, w.value)))
    else
      None
  }

  /** Normalising only rescales: each normalised weight times the raw sum
      is the raw weight. */
  lemma NormalizeScales(w: Weights)
    requires Sum(w) != 0.0
    ensures Normalize(w).Some?
    ensures Normalize(w).value.a * Sum(w) == w.a
    ensures Normalize(w).value.b * Sum(w) == w.b
    ensures Normalize(w).value.c * Sum(w) == w.c
  {
  }

  /** A triangle whose vertices share one colour is drawn in that colour,
      quantised, wherever it is drawn. */
  lemma ShadeUniform(s: Setup, t: Triangle, x: int, y: int)
    requires t.a.color == t.b.color == t.c.color
    ensures Shade(s, t, x, y).Some? ==> Shade(s, t, x, y).value == Colors.Vec4ToColor(t.a.color)
  {
    var w := Normalize(RawWeights(s, PixelCentre(x, y)));
    if w.Some? {
      BlendUniform(t, w.value);
    }
  }

  /** At its first vertex a front-facing triangle with nonzero depth there
      has weights (1, 0, 0). */
  lemma WeightsAtVertex(s: Setup)
    requires SignedArea(Vec3.Truncate(s.a), Vec3.Truncate(s.b), Vec3.Truncate(s.c)) > 0.0
    requires s.a.z != 0.0
    ensures Normalize(RawWeights(s, Vec3.Truncate(s.a))) == Some(Weights(1.0, 0.0, 0.0))
  {
    var a, b, c := Vec3.Truncate(s.a), Vec3.Truncate(s.b), Vec3.Truncate(s.c);
    var area := SignedArea(a, b, c);
    var w := RawWeights(s, a);
    assert Vec2.Cross(Vec2.Sub(c, b), Vec2.Sub(a, b)) == area;
    assert w.b == 0.0 && w.c == 0.0;
    NonzeroProduct(area / 2.0, s.a.z, w.a);
    assert Sum(w) == w.a;
  }

  lemma NonzeroProduct(a: real, b: real, p: real)
    requires a != 0.0 && b != 0.0 && p == a * b
    ensures p != 0.0
  {
    if a > 0.0 && b > 0.0 {
      calc { p; == a * b; > 0.0; }
    } else if a > 0.0 {
      calc { p; == a * b; < 0.0; }
    } else if b > 0.0 {
      calc { p; == a * b; < 0.0; }
    } else {
      calc { p; == a * b; > 0.0; }
    }
  }

  /** A pixel whose centre is the first vertex takes that vertex's colour. */
  lemma ShadeAtVertex(s: Setup, t: Triangle, x: int, y: int)
    requires SignedArea(Vec3.Truncate(s.a), Vec3.Truncate(s.b), Vec3.Truncate(s.c)) > 0.0
    requires s.a.z != 0.0 && PixelCentre(x, y) == Vec3.Truncate(s.a)
    ensures Shade(s, t, x, y) == Some(Colors.Vec4ToColor(t.a.color))
  {
    WeightsAtVertex(s);
    assert Blend(t, Weights(1.0, 0.0, 0.0)) == t.a.color;
  }

  /** `p` lies on the inner side of, or on, each edge of the triangle
      `a b c` taken counter-clockwise: the geometric inside test. */
  predicate InsideTriangle(a: Vec2.Vector2, b: Vec2.Vector2, c: Vec2.Vector2, p: Vec2.Vector2) {
    && Vec2.Cross(Vec2.Sub(c, b), Vec2.Sub(p, b)) >= 0.0
    && Vec2.Cross(Vec2.Sub(a, c), Vec2.Sub(p, c)) >= 0.0
    && Vec2.Cross(Vec2.Sub(b, a), Vec2.Sub(p, a)) >= 0.0
  }

  /** The shading writes a pixel exactly when its centre is inside the
      triangle, provided the three depths share one sign: the test on the
      normalised weights is then the geometric inside test. */
  lemma ShadeInside(s: Setup, t: Triangle, x: int, y: int)
    requires SignedArea(Vec3.Truncate(s.a), Vec3.Truncate(s.b), Vec3.Truncate(s.c)) > 0.0
    requires (s.a.z > 0.0 && s.b.z > 0.0 && s.c.z > 0.0) || (s.a.z < 0.0 && s.b.z < 0.0 && s.c.z < 0.0)
    ensures Shade(s, t, x, y).Some?
        <==> InsideTriangle(Vec3.Truncate(s.a), Vec3.Truncate(s.b), Vec3.Truncate(s.c), PixelCentre(x, y))
  {
    var a, b, c := Vec3.Truncate(s.a), Vec3.Truncate(s.b), Vec3.Truncate(s.c);
    var p := PixelCentre(x, y);
    var ka := Vec2.Cross(Vec2.Sub(c, b), Vec2.Sub(p, b));
    var kb := Vec2.Cross(Vec2.Sub(a, c), Vec2.Sub(p, c));
    var kc := Vec2.Cross(Vec2.Sub(b, a), Vec2.Sub(p, a));
    assert ka + kb + kc == SignedArea(a, b, c);
    InsideSigns(ka, kb, kc, s.a.z, s.b.z, s.c.z, RawWeights(s, p));
  }

  /** The sign argument behind `ShadeInside`, over the edge crosses `k`,
      the depths `z` and the raw weights `w`: with a positive total and
      depths of one sign, the normalised weights are all nonnegative
      exactly when the crosses are. */
  lemma InsideSigns(ka: real, kb: real, kc: real, za: real, zb: real, zc: real, w: Weights)
    requires ka + kb + kc > 0.0
    requires w.a == ka / 2.0 * za && w.b == kb / 2.0 * zb && w.c == kc / 2.0 * zc
    requires (za > 0.0 && zb > 0.0 && zc > 0.0) || (za < 0.0 && zb < 0.0 && zc < 0.0)
    ensures (Normalize(w).Some? && Normalize(w).value.a >= 0.0 && Normalize(w).value.b >= 0.0
             && Normalize(w).value.c >= 0.0)
        <==> ka >= 0.0 && kb >= 0.0 && kc >= 0.0
  {
    ProductSign(ka, za, w.a);
    ProductSign(kb, zb, w.b);
    ProductSign(kc, zc, w.c);
    var sum := Sum(w);
    if sum != 0.0 {
      QuotientSign(w.a, sum, w.a / sum);
      QuotientSign(w.b, sum, w.b / sum);
      QuotientSign(w.c, sum, w.c / sum);
    }
  }

  /** The sign of `w = k / 2 * z` for a nonzero depth `z`. */
  lemma ProductSign(k: real, z: real, w: real)
    requires z != 0.0 && w == k / 2.0 * z
    ensures z > 0.0 ==> (w >= 0.0 <==> k >= 0.0) && (w > 0.0 <==> k > 0.0)
    ensures z < 0.0 ==> (w >= 0.0 <==> k <= 0.0) && (w < 0.0 <==> k > 0.0)
  {
    var h := k / 2.0;
    if h > 0.0 && z > 0.0 {
      calc { w; == h * z; > 0.0; }
    } else if h > 0.0 {
      calc { w; == h * z; < 0.0; }
    } else if h < 0.0 && z > 0.0 {
      calc { w; == h * z; < 0.0; }
    } else if h < 0.0 {
      calc { w; == h * z; > 0.0; }
    } else {
      calc { w; == h * z; == 0.0 * z; == 0.0; }
    }
  }

  /** The sign of a quotient `q = v / sum`. */
  lemma QuotientSign(v: real, sum: real, q: real)
    requires sum != 0.0 && q == v / sum
    ensures q >= 0.0 <==> (sum > 0.0 && v >= 0.0) || (sum < 0.0 && v <= 0.0)
  {
    assert v == q * sum;
    if q >= 0.0 && sum > 0.0 {
      calc { v; == q * sum; >= 0.0; }
    } else if q >= 0.0 {
      calc { v; == q * sum; <= 0.0; }
    } else if sum > 0.0 {
      calc { v; == q * sum; < 0.0; }
    } else {
      calc { v; == q * sum; > 0.0; }
    }
  }

  /** Whether and how one triangle colours pixel `(x, y)`: only inside the
      scanned range of a prepared triangle, hence only on screen. */
  function Covers(width: nat, height: nat, m: Mat4.Matrix4, t: Triangle, x: int, y: int): (r: Option<Colors.Color>)
    ensures r.Some? ==> 0 <= x < width && 0 <= y < height
  {
    match Prepare(width, height, m, t)
    case None => None
    case Some(s) =>
      if s.xmin <= x < s.xmax && s.ymin <= y < s.ymax then Shade(s, t, x, y) else None
  }

  /** The new colour of an entry: the written one if there is one. */
  function Overlay(prev: Colors.Color, c: Option<Colors.Color>): Colors.Color {
    match c
    case None => prev
    case Some(c) => c
  }

  // ---------------------------------------------------------------------
  // The reference definition of `render`

  /** What one triangle does to each pixel `(x, y)`: the colour it writes
      there, if any. */
  type Coverage = (int, int) -> Option<Colors.Color>

  function CoverageOf(width: nat, height: nat, m: Mat4.Matrix4, t: Triangle): Coverage {
    (x, y) => Covers(width, height, m, t, x, y)
  }

  /** A coverage laid over a row-major framebuffer of the given width. */
  function Paint(fb: seq<Colors.Color>, width: nat, cover: Coverage): (r: seq<Colors.Color>)
    ensures |r| == |fb|
  {
    if width == 0 then fb
    else seq(|fb|, i requires 0 <= i < |fb| => Overlay(fb[i], cover(i % width, i / width)))
  }

  /** Entry `y * width + x` of a painted framebuffer belongs to pixel `(x, y)`. */
  lemma PaintPixel(fb: seq<Colors.Color>, width: nat, height: nat, cover: Coverage, x: nat, y: nat)
    requires |fb| == width * height && x < width && y < height
    ensures y * width + x < |fb|
    ensures Paint(fb, width, cover)[y * width + x] == Overlay(fb[y * width + x], cover(x, y))
  {
    IndexInRange(width, height, x, y);
    IndexSplit(width, x, y);
  }

  /** Painting a coverage that writes nowhere changes nothing. */
  lemma PaintNothing(fb: seq<Colors.Color>, width: nat, cover: Coverage)
    requires forall x, y :: cover(x, y).None?
    ensures Paint(fb, width, cover) == fb
  {
  }

  /** One triangle drawn over `fb`. */
  function DrawTriangle(fb: seq<Colors.Color>, width: nat, height: nat, m: Mat4.Matrix4, t: Triangle): (r: seq<Colors.Color>)
    requires |fb| == width * height
    ensures |r| == |fb|
  {
    Paint(fb, width, CoverageOf(width, height, m, t))
  }

  /** Pixel `(x, y)` after one triangle is drawn: the triangle's colour for
      it, if any, and otherwise its old colour. */
  lemma DrawTrianglePixel(fb: seq<Colors.Color>, width: nat, height: nat, m: Mat4.Matrix4, t: Triangle, x: nat, y: nat)
    requires |fb| == width * height && x < width && y < height
    ensures y * width + x < |fb|
    ensures DrawTriangle(fb, width, height, m, t)[y * width + x]
         == Overlay(fb[y * width + x], Covers(width, height, m, t, x, y))
  {
    PaintPixel(fb, width, height, CoverageOf(width, height, m, t), x, y);
  }

  /** A triangle that projects but faces away (or is edge-on) changes nothing. */
  lemma CulledUnchanged(fb: seq<Colors.Color>, width: nat, height: nat, m: Mat4.Matrix4, t: Triangle)
    requires |fb| == width * height
    requires Mat4.Transformable(m, t.a.position) && Mat4.Transformable(m, t.b.position)
    requires Mat4.Transformable(m, t.c.position)
    requires SignedArea(
               Vec3.Truncate(ToScreen(m, width, height, t.a.position).value),
               Vec3.Truncate(ToScreen(m, width, height, t.b.position).value),
               Vec3.Truncate(ToScreen(m, width, height, t.c.position).value)) <= 0.0
    ensures DrawTriangle(fb, width, height, m, t) == fb
  {
    assert Prepare(width, height, m, t).None?;
    forall x, y ensures CoverageOf(width, height, m, t)(x, y).None? {
    }
    PaintNothing(fb, width, CoverageOf(width, height, m, t));
  }

  // Painter's order, for any sequence of coverages.

  /** Each coverage laid over the result of those before it. */
  function PaintAll(fb: seq<Colors.Color>, width: nat, cs: seq<Coverage>): (r: seq<Colors.Color>)
    ensures |r| == |fb|
    decreases |cs|
  {
    if cs == [] then fb
    else Paint(PaintAll(fb, width, cs[..|cs| - 1]), width, cs[|cs| - 1])
  }

  /** What the last coverage in `cs` that writes pixel `(x, y)` writes there. */
  function LastWrite(cs: seq<Coverage>, x: int, y: int): Option<Colors.Color>
    decreases |cs|
  {
    if cs == [] then None
    else match cs[|cs| - 1](x, y)
      case Some(c) => Some(c)
      case None => LastWrite(cs[..|cs| - 1], x, y)
  }

  lemma {:induction false} PaintAllPixel(
    fb: seq<Colors.Color>, width: nat, height: nat, cs: seq<Coverage>, x: nat, y: nat)
    requires |fb| == width * height && x < width && y < height
    ensures y * width + x < |fb|
    ensures PaintAll(fb, width, cs)[y * width + x] == Overlay(fb[y * width + x], LastWrite(cs, x, y))
    decreases |cs|
  {
    IndexInRange(width, height, x, y);
    if cs != [] {
      var prefix := cs[..|cs| - 1];
      PaintAllPixel(fb, width, height, prefix, x, y);
      PaintPixel(PaintAll(fb, width, prefix), width, height, cs[|cs| - 1], x, y);
    }
  }

  lemma {:induction false} NoLastWrite(cs: seq<Coverage>, x: int, y: int)
    requires forall j :: 0 <= j < |cs| ==> cs[j](x, y).None?
    ensures LastWrite(cs, x, y).None?
    decreases |cs|
  {
    if cs != [] {
      var prefix := cs[..|cs| - 1];
      assert forall j :: 0 <= j < |prefix| ==> prefix[j] == cs[j];
      NoLastWrite(prefix, x, y);
    }
  }

  // ---------------------------------------------------------------------
  // The frame

  function Coverages(width: nat, height: nat, m: Mat4.Matrix4, ts: seq<Triangle>): (cs: seq<Coverage>)
    ensures |cs| == |ts|
  {
    seq(|ts|, i requires 0 <= i < |ts| => CoverageOf(width, height, m, ts[i]))
  }

  /** All triangles drawn in list order, each over the result of those
      before it. */
  function RenderFrame(fb: seq<Colors.Color>, width: nat, height: nat, m: Mat4.Matrix4, ts: seq<Triangle>): (r: seq<Colors.Color>)
    requires |fb| == width * height
    ensures |r| == |fb|
  {
    PaintAll(fb, width, Coverages(width, height, m, ts))
  }

  /** Triangles are drawn in list order: rendering one more triangle draws it
      over what the others produced. */
  lemma RenderAppend(fb: seq<Colors.Color>, width: nat, height: nat, m: Mat4.Matrix4, ts: seq<Triangle>, t: Triangle)
    requires |fb| == width * height
    ensures RenderFrame(fb, width, height, m, ts + [t])
         == DrawTriangle(RenderFrame(fb, width, height, m, ts), width, height, m, t)
  {
    var cs := Coverages(width, height, m, ts + [t]);
    assert cs[..|ts|] == Coverages(width, height, m, ts);
  }

  /** Painter's order: when no later triangle colours pixel `(x, y)`, the
      pixel ends as triangle `k` left it, that is with triangle `k`'s colour
      if it colours the pixel, and otherwise as the triangles before `k` left
      it. */
  lemma {:induction false} LastWriterWins(
    fb: seq<Colors.Color>, width: nat, height: nat, m: Mat4.Matrix4, ts: seq<Triangle>, k: nat, x: nat, y: nat)
    requires |fb| == width * height && x < width && y < height && k < |ts|
    requires forall j :: k < j < |ts| ==> Covers(width, height, m, ts[j], x, y).None?
    ensures y * width + x < |fb|
    ensures RenderFrame(fb, width, height, m, ts)[y * width + x]
         == Overlay(RenderFrame(fb, width, height, m, ts[..k])[y * width + x], Covers(width, height, m, ts[k], x, y))
    decreases |ts|
  {
    IndexInRange(width, height, x, y);
    var i := y * width + x;
    var prefix := ts[..|ts| - 1];
    assert ts == prefix + [ts[|ts| - 1]];
    RenderAppend(fb, width, height, m, prefix, ts[|ts| - 1]);
    DrawTrianglePixel(RenderFrame(fb, width, height, m, prefix), width, height, m, ts[|ts| - 1], x, y);
    if k < |ts| - 1 {
      assert prefix[k] == ts[k] && prefix[..k] == ts[..k];
      assert forall j :: k < j < |prefix| ==> prefix[j] == ts[j];
      LastWriterWins(fb, width, height, m, prefix, k, x, y);
    } else {
      assert prefix == ts[..k];
    }
  }

  /** A pixel that no triangle colours keeps its colour. */
  lemma Untouched(
    fb: seq<Colors.Color>, width: nat, height: nat, m: Mat4.Matrix4, ts: seq<Triangle>, x: nat, y: nat)
    requires |fb| == width * height && x < width && y < height
    requires forall j :: 0 <= j < |ts| ==> Covers(width, height, m, ts[j], x, y).None?
    ensures y * width + x < |fb|
    ensures RenderFrame(fb, width, height, m, ts)[y * width + x] == fb[y * width + x]
  {
    var cs := Coverages(width, height, m, ts);
    forall j | 0 <= j < |ts| ensures cs[j](x, y).None? {
      assert cs[j](x, y) == Covers(width, height, m, ts[j], x, y);
    }
    NoLastWrite(cs, x, y);
    PaintAllPixel(fb, width, height, cs, x, y);
  }

  // ---------------------------------------------------------------------
  // The loops of `render`

  /** Pixel `(px, py)` comes before `(x, y)` in the row-major scan. */
  predicate Before(px: int, py: int, x: int, y: int) {
    py < y || (py == y && px < x)
  }

  /** `cover` laid over the pixels that come before `(x, y)` only: what the
      scan has written when it reaches `(x, y)`. */
  function PaintBefore(fb: seq<Colors.Color>, width: nat, cover: Coverage, x: int, y: int): (r: seq<Colors.Color>)
    ensures |r| == |fb|
  {
    if width == 0 then fb
    else
      seq(|fb|, i requires 0 <= i < |fb| =>
            (if Before(i % width, i / width, x, y) then Overlay(fb[i], cover(i % width, i / width)) else fb[i]))
  }

  /** `cover` writes only inside the given pixel range. */
  ghost predicate WithinBox(cover: Coverage, xmin: int, ymin: int, xmax: int, ymax: int) {
    forall px, py :: cover(px, py).Some? ==> xmin <= px < xmax && ymin <= py < ymax
  }

  /** `fb` with `c` written at entry `i`, if there is a colour to write. */
  function Put(fb: seq<Colors.Color>, i: nat, c: Option<Colors.Color>): seq<Colors.Color>
    requires i < |fb|
  {
    match c
    case None => fb
    case Some(c) => fb[i := c]
  }

  lemma PaintBeforeStart(fb: seq<Colors.Color>, width: nat, cover: Coverage, xmin: int, ymin: int, xmax: int, ymax: int)
    requires WithinBox(cover, xmin, ymin, xmax, ymax)
    ensures PaintBefore(fb, width, cover, xmin, ymin) == fb
  {
  }

  /** Every entry index is the index of the pixel its quotient and
      remainder by the width name. */
  lemma IndexJoin(w: nat, i: nat)
    requires w > 0
    ensures i == (i / w) * w + i % w && 0 <= i % w < w
  {
  }

  /** Scanning pixel `(x, y)` writes what `cover` gives it at its index. */
  lemma PaintBeforeStep(fb: seq<Colors.Color>, width: nat, height: nat, cover: Coverage, x: nat, y: nat)
    requires |fb| == width * height && x < width && y < height
    ensures y * width + x < |fb|
    ensures PaintBefore(fb, width, cover, x + 1, y)
         == Put(PaintBefore(fb, width, cover, x, y), y * width + x, cover(x, y))
  {
    IndexInRange(width, height, x, y);
    IndexSplit(width, x, y);
    var i0 := y * width + x;
    var a := PaintBefore(fb, width, cover, x + 1, y);
    var b := Put(PaintBefore(fb, width, cover, x, y), i0, cover(x, y));
    forall i | 0 <= i < |fb| ensures a[i] == b[i] {
      IndexJoin(width, i);
      var px, py := i % width, i / width;
      if i == i0 {
        assert (px, py) == (x, y);
        assert a[i] == Overlay(fb[i], cover(x, y));
      } else {
        if px == x && py == y {
          assert false;
        }
        assert Before(px, py, x + 1, y) == Before(px, py, x, y);
        assert b[i] == PaintBefore(fb, width, cover, x, y)[i];
      }
    }
  }

  /** The end of one row of the box is the start of the next. */
  lemma PaintBeforeNextRow(fb: seq<Colors.Color>, width: nat, cover: Coverage, xmin: int, ymin: int, xmax: int, ymax: int, y: int)
    requires WithinBox(cover, xmin, ymin, xmax, ymax)
    ensures PaintBefore(fb, width, cover, xmax, y) == PaintBefore(fb, width, cover, xmin, y + 1)
  {
  }

  /** Once every row of the box is scanned, the whole coverage is painted. */
  lemma PaintBeforeEnd(fb: seq<Colors.Color>, width: nat, cover: Coverage, xmin: int, ymin: int, xmax: int, ymax: int)
    requires WithinBox(cover, xmin, ymin, xmax, ymax)
    ensures PaintBefore(fb, width, cover, xmin, ymax) == Paint(fb, width, cover)
  {
  }

  /** A prepared triangle writes only inside its scanned range. Proof
      plumbing: it only unfolds the range test in `Covers`. */
  lemma CoverageWithinBox(width: nat, height: nat, m: Mat4.Matrix4, t: Triangle, s: Setup)
    requires Prepare(width, height, m, t) == Some(s)
    ensures WithinBox(CoverageOf(width, height, m, t), s.xmin, s.ymin, s.xmax, s.ymax)
  {
  }

  /** The scanned range is the triangle's screen box clipped to the screen,
      floored at the low corner and ceiled at the high one: every scanned
      column lies less than one pixel from the triangle's x extent, and the
      range reaches the triangle's extent unless the screen edge stops it
      first. Likewise for rows. */
  lemma ScannedRange(width: nat, height: nat, m: Mat4.Matrix4, t: Triangle, s: Setup)
    requires Prepare(width, height, m, t) == Some(s)
    ensures BoundRects.Min3(s.a.x, s.b.x, s.c.x) < s.xmin as real + 1.0
    ensures s.xmax as real - 1.0 < BoundRects.Max3(s.a.x, s.b.x, s.c.x)
    ensures BoundRects.Min3(s.a.y, s.b.y, s.c.y) < s.ymin as real + 1.0
    ensures s.ymax as real - 1.0 < BoundRects.Max3(s.a.y, s.b.y, s.c.y)
    ensures s.xmin == 0 || s.xmin as real <= BoundRects.Min3(s.a.x, s.b.x, s.c.x)
    ensures s.xmax == width || BoundRects.Max3(s.a.x, s.b.x, s.c.x) <= s.xmax as real
    ensures s.ymin == 0 || s.ymin as real <= BoundRects.Min3(s.a.y, s.b.y, s.c.y)
    ensures s.ymax == height || BoundRects.Max3(s.a.y, s.b.y, s.c.y) <= s.ymax as real
  {
    var a2, b2, c2 := Vec3.Truncate(s.a), Vec3.Truncate(s.b), Vec3.Truncate(s.c);
    BoundRects.FromThreePoints(a2, b2, c2);
    var screen := BoundRects.FromBounds(0.0, 0.0, width as real, height as real);
    var bb := BoundRects.Intersection(BoundRects.FromPoints([a2, b2, c2]).value, screen);
    assert s.xmin == bb.min.x.Floor && s.ymin == bb.min.y.Floor;
    assert s.xmax == Ceil(bb.max.x) && s.ymax == Ceil(bb.max.y);
  }

  /** A pixel a triangle colours lies within one pixel of the triangle's
      screen box: its column overlaps the x extent of the projected
      vertices, and its row the y extent. */
  lemma CoverNearTriangle(width: nat, height: nat, m: Mat4.Matrix4, t: Triangle, x: int, y: int)
    requires Covers(width, height, m, t, x, y).Some?
    ensures Prepare(width, height, m, t).Some?
    ensures var s := Prepare(width, height, m, t).value;
            && BoundRects.Min3(s.a.x, s.b.x, s.c.x) < x as real + 1.0
            && x as real < BoundRects.Max3(s.a.x, s.b.x, s.c.x)
            && BoundRects.Min3(s.a.y, s.b.y, s.c.y) < y as real + 1.0
            && y as real < BoundRects.Max3(s.a.y, s.b.y, s.c.y)
  {
    var s := Prepare(width, height, m, t).value;
    ScannedRange(width, height, m, t, s);
  }

  /** A triangle whose projection lies wholly beyond one edge of the screen
      changes nothing. */
  lemma OffScreenUnchanged(fb: seq<Colors.Color>, width: nat, height: nat, m: Mat4.Matrix4, t: Triangle)
    requires |fb| == width * height
    requires Mat4.Transformable(m, t.a.position) && Mat4.Transformable(m, t.b.position)
    requires Mat4.Transformable(m, t.c.position)
    requires
      var a := ToScreen(m, width, height, t.a.position).value;
      var b := ToScreen(m, width, height, t.b.position).value;
      var c := ToScreen(m, width, height, t.c.position).value;
      || BoundRects.Max3(a.x, b.x, c.x) <= 0.0 || BoundRects.Min3(a.x, b.x, c.x) >= width as real
      || BoundRects.Max3(a.y, b.y, c.y) <= 0.0 || BoundRects.Min3(a.y, b.y, c.y) >= height as real
    ensures DrawTriangle(fb, width, height, m, t) == fb
  {
    var cover := CoverageOf(width, height, m, t);
    forall x, y ensures cover(x, y).None? {
      if Covers(width, height, m, t, x, y).Some? {
        CoverNearTriangle(width, height, m, t, x, y);
        assert false;
      }
    }
    PaintNothing(fb, width, cover);
  }

  /** A front-facing triangle has a screen box of positive width and
      height: three points sharing an x or a y coordinate span no area. */
  lemma AreaSpreads(a: Vec2.Vector2, b: Vec2.Vector2, c: Vec2.Vector2)
    requires SignedArea(a, b, c) > 0.0
    ensures BoundRects.Min3(a.x, b.x, c.x) < BoundRects.Max3(a.x, b.x, c.x)
    ensures BoundRects.Min3(a.y, b.y, c.y) < BoundRects.Max3(a.y, b.y, c.y)
  {
    if a.x == b.x == c.x {
      assert false;
    }
    if a.y == b.y == c.y {
      assert false;
    }
  }

  /** The screen box of three projected vertices overlaps the inside of a
      `width` by `height` screen. */
  predicate OverlapsScreen(width: nat, height: nat, a: Vec2.Vector2, b: Vec2.Vector2, c: Vec2.Vector2) {
    && 0 < width && 0 < height
    && BoundRects.Min3(a.x, b.x, c.x) < width as real && 0.0 < BoundRects.Max3(a.x, b.x, c.x)
    && BoundRects.Min3(a.y, b.y, c.y) < height as real && 0.0 < BoundRects.Max3(a.y, b.y, c.y)
  }

  /** The cull-and-clip decision in both directions: a triangle is scanned
      exactly when its three vertices project, it faces the viewer, and its
      screen box overlaps the screen. */
  lemma PrepareDecision(width: nat, height: nat, m: Mat4.Matrix4, t: Triangle)
    ensures Prepare(width, height, m, t).Some? <==>
              && ToScreen(m, width, height, t.a.position).Some?
              && ToScreen(m, width, height, t.b.position).Some?
              && ToScreen(m, width, height, t.c.position).Some?
              && var a2 := Vec3.Truncate(ToScreen(m, width, height, t.a.position).value);
                 var b2 := Vec3.Truncate(ToScreen(m, width, height, t.b.position).value);
                 var c2 := Vec3.Truncate(ToScreen(m, width, height, t.c.position).value);
                 SignedArea(a2, b2, c2) > 0.0 && OverlapsScreen(width, height, a2, b2, c2)
  {
    var a := ToScreen(m, width, height, t.a.position);
    var b := ToScreen(m, width, height, t.b.position);
    var c := ToScreen(m, width, height, t.c.position);
    if a.Some? && b.Some? && c.Some? {
      var a2, b2, c2 := Vec3.Truncate(a.value), Vec3.Truncate(b.value), Vec3.Truncate(c.value);
      if SignedArea(a2, b2, c2) > 0.0 {
        BoundRects.FromThreePoints(a2, b2, c2);
        AreaSpreads(a2, b2, c2);
      }
    }
  }

  /** Something is drawn: a front-facing triangle whose first vertex sits
      at the centre of an on-screen pixel, at nonzero depth, colours that
      pixel with the first vertex's colour. */
  lemma CoversAtVertex(width: nat, height: nat, m: Mat4.Matrix4, t: Triangle, x: int, y: int)
    requires 0 <= x < width && 0 <= y < height
    requires ToScreen(m, width, height, t.a.position).Some?
    requires ToScreen(m, width, height, t.b.position).Some?
    requires ToScreen(m, width, height, t.c.position).Some?
    requires
      var a := ToScreen(m, width, height, t.a.position).value;
      var b := ToScreen(m, width, height, t.b.position).value;
      var c := ToScreen(m, width, height, t.c.position).value;
      && SignedArea(Vec3.Truncate(a), Vec3.Truncate(b), Vec3.Truncate(c)) > 0.0
      && PixelCentre(x, y) == Vec3.Truncate(a)
      && a.z != 0.0
    ensures Covers(width, height, m, t, x, y) == Some(Colors.Vec4ToColor(t.a.color))
  {
    var a := ToScreen(m, width, height, t.a.position).value;
    var b := ToScreen(m, width, height, t.b.position).value;
    var c := ToScreen(m, width, height, t.c.position).value;
    var a2, b2, c2 := Vec3.Truncate(a), Vec3.Truncate(b), Vec3.Truncate(c);
    assert BoundRects.Min3(a2.x, b2.x, c2.x) <= a2.x <= BoundRects.Max3(a2.x, b2.x, c2.x);
    assert BoundRects.Min3(a2.y, b2.y, c2.y) <= a2.y <= BoundRects.Max3(a2.y, b2.y, c2.y);
    PrepareDecision(width, height, m, t);
    var s := Prepare(width, height, m, t).value;
    ScannedRange(width, height, m, t, s);
    ShadeAtVertex(s, t, x, y);
  }

  /** A triangle that does not prepare writes nowhere. Proof plumbing: it
      only unfolds the first case of `Covers`. */
  lemma NoSetupNoCover(width: nat, height: nat, m: Mat4.Matrix4, t: Triangle)
    requires Prepare(width, height, m, t).None?
    ensures forall x, y :: CoverageOf(width, height, m, t)(x, y).None?
  {
  }

  /** Inside the scanned range, a prepared triangle writes what its shading
      at the pixel gives. Proof plumbing: it only unfolds the second case of
      `Covers`. */
  lemma CoverIsShade(width: nat, height: nat, m: Mat4.Matrix4, t: Triangle, s: Setup)
    requires Prepare(width, height, m, t) == Some(s)
    ensures forall x, y :: s.xmin <= x < s.xmax && s.ymin <= y < s.ymax ==>
              CoverageOf(width, height, m, t)(x, y) == Shade(s, t, x, y)
  {
  }

  /** Inside the scanned range of a triangle whose depths share one sign,
      a pixel is written exactly when its centre is inside the triangle,
      and a triangle of one colour writes that colour there. */
  lemma CoversInside(width: nat, height: nat, m: Mat4.Matrix4, t: Triangle, s: Setup, x: int, y: int)
    requires Prepare(width, height, m, t) == Some(s)
    requires s.xmin <= x < s.xmax && s.ymin <= y < s.ymax
    requires (s.a.z > 0.0 && s.b.z > 0.0 && s.c.z > 0.0) || (s.a.z < 0.0 && s.b.z < 0.0 && s.c.z < 0.0)
    ensures Covers(width, height, m, t, x, y).Some?
        <==> InsideTriangle(Vec3.Truncate(s.a), Vec3.Truncate(s.b), Vec3.Truncate(s.c), PixelCentre(x, y))
    ensures t.a.color == t.b.color == t.c.color
            && InsideTriangle(Vec3.Truncate(s.a), Vec3.Truncate(s.b), Vec3.Truncate(s.c), PixelCentre(x, y))
            ==> Covers(width, height, m, t, x, y) == Some(Colors.Vec4ToColor(t.a.color))
  {
    ShadeInside(s, t, x, y);
    if t.a.color == t.b.color == t.c.color {
      ShadeUniform(s, t, x, y);
    }
  }

  /** The body of the column loop of `render`: the weights at the pixel
      centre, normalised, and if all are nonnegative the blended colour is
      written at the pixel. */
  method ShadePixel(r: Renderer, s: Setup, t: Triangle, x: nat, y: nat) returns (r': Renderer)
    requires Valid(r) && x < r.width && y < r.height
    ensures r'.width == r.width && r'.height == r.height && r'.perspective == r.perspective
    ensures y * r.width + x < |r.framebuffer|
    ensures r'.framebuffer == Put(r.framebuffer, y * r.width + x, Shade(s, t, x, y))
  {
    IndexInRange(r.width, r.height, x, y);
    r' := r;
    var w := Normalize(RawWeights(s, PixelCentre(x, y)));
    if w.Some? && w.value.a >= 0.0 && w.value.b >= 0.0 && w.value.c >= 0.0 {
      r' := SetPixel(r', x, y, Colors.Vec4ToColor(Blend(t, w.value)));
    }
  }

  /** The column loop of `render` over one row of the scanned range. */
  method ScanRow(r: Renderer, ghost fb0: seq<Colors.Color>, ghost cover: Coverage, s: Setup, t: Triangle, y: nat)
    returns (r': Renderer)
    requires Valid(r) && |fb0| == |r.framebuffer| && s.xmin <= s.xmax <= r.width && y < r.height
    requires forall x :: s.xmin <= x < s.xmax ==> cover(x, y) == Shade(s, t, x, y)
    requires r.framebuffer == PaintBefore(fb0, r.width, cover, s.xmin, y)
    ensures r'.width == r.width && r'.height == r.height && r'.perspective == r.perspective
    ensures r'.framebuffer == PaintBefore(fb0, r.width, cover, s.xmax, y)
  {
    r' := r;
    for x := s.xmin to s.xmax
      invariant r'.width == r.width && r'.height == r.height && r'.perspective == r.perspective
      invariant r'.framebuffer == PaintBefore(fb0, r.width, cover, x, y)
    {
      PaintBeforeStep(fb0, r.width, r.height, cover, x, y);
      r' := ShadePixel(r', s, t, x, y);
    }
  }

  /** The row loop of `render` over the scanned range of a prepared
      triangle. */
  method ScanBox(r: Renderer, ghost cover: Coverage, s: Setup, t: Triangle) returns (r': Renderer)
    requires Valid(r) && s.xmin <= s.xmax <= r.width && s.ymin <= s.ymax <= r.height
    requires WithinBox(cover, s.xmin, s.ymin, s.xmax, s.ymax)
    requires forall x, y :: s.xmin <= x < s.xmax && s.ymin <= y < s.ymax ==> cover(x, y) == Shade(s, t, x, y)
    ensures r'.width == r.width && r'.height == r.height && r'.perspective == r.perspective
    ensures r'.framebuffer == Paint(r.framebuffer, r.width, cover)
  {
    r' := r;
    PaintBeforeStart(r.framebuffer, r.width, cover, s.xmin, s.ymin, s.xmax, s.ymax);
    for y := s.ymin to s.ymax
      invariant r'.width == r.width && r'.height == r.height && r'.perspective == r.perspective
      invariant r'.framebuffer == PaintBefore(r.framebuffer, r.width, cover, s.xmin, y)
    {
      r' := ScanRow(r', r.framebuffer, cover, s, t, y);
      PaintBeforeNextRow(r.framebuffer, r.width, cover, s.xmin, s.ymin, s.xmax, s.ymax, y);
    }
    PaintBeforeEnd(r.framebuffer, r.width, cover, s.xmin, s.ymin, s.xmax, s.ymax);
  }

  /** One iteration of the triangle loop of `render`: project and cull the
      triangle, clip its box to the screen, and scan the box row by row. */
  method DrawTriangleInto(r: Renderer, m: Mat4.Matrix4, t: Triangle) returns (r': Renderer)
    requires Valid(r)
    ensures r'.width == r.width && r'.height == r.height && r'.perspective == r.perspective
    ensures r'.framebuffer == DrawTriangle(r.framebuffer, r.width, r.height, m, t)
  {
    ghost var cover := CoverageOf(r.width, r.height, m, t);
    var setup := Prepare(r.width, r.height, m, t);
    if setup.None? {
      NoSetupNoCover(r.width, r.height, m, t);
      PaintNothing(r.framebuffer, r.width, cover);
      return r;
    }
    CoverageWithinBox(r.width, r.height, m, t, setup.value);
    CoverIsShade(r.width, r.height, m, t, setup.value);
    r' := ScanBox(r, cover, setup.value, t);
  }

  /** `render`: the triangles drawn in order through the product of the
      renderer's perspective matrix and `transformation`. The dimensions, the
      matrix and the framebuffer length do not change. */
  method Render(r: Renderer, transformation: Mat4.Matrix4, triangles: seq<Triangle>) returns (r': Renderer)
    requires Valid(r)
    ensures r'.width == r.width && r'.height == r.height && r'.perspective == r.perspective
    ensures Valid(r')
    ensures r'.framebuffer
         == RenderFrame(r.framebuffer, r.width, r.height, Mat4.Mul(r.perspective, transformation), triangles)
  {
    var m := Mat4.Mul(r.perspective, transformation);
    r' := r;
    for k := 0 to |triangles|
      invariant r'.width == r.width && r'.height == r.height && r'.perspective == r.perspective
      invariant r'.framebuffer == RenderFrame(r.framebuffer, r.width, r.height, m, triangles[..k])
    {
      RenderAppend(r.framebuffer, r.width, r.height, m, triangles[..k], triangles[k]);
      assert triangles[..k + 1] == triangles[..k] + [triangles[k]];
      r' := DrawTriangleInto(r', m, triangles[k]);
    }
    assert triangles[..|triangles|] == triangles;
  }
}

=== FILE: vec2.dfy ===
/** Two-component vectors over exact reals: componentwise arithmetic, the
    squared magnitude and the scalar (z-component) cross product. */
module Vec2 {

  import Reals

  datatype Vector2 = Vector2(x: real, y: real)

  const Zero := Vector2(0.0, 0.0)

  function Add(a: Vector2, b: Vector2): Vector2 {
    Vector2(a.x + b.x, a.y + b.y)
  }

  /** Subtraction is the inverse of addition. */
  function Sub(a: Vector2, b: Vector2): (r: Vector2)
    ensures Add(r, b) == a
  {
    Vector2(a.x - b.x, a.y - b.y)
  }

  /** `v * s` for a scalar `s`. */
  function MulScalar(v: Vector2, s: real): Vector2 {
    Vector2(v.x * s, v.y * s)
  }

  /** `a * b` for two vectors: the componentwise product. */
  function Mul(a: Vector2, b: Vector2): Vector2 {
    Vector2(a.x * b.x, a.y * b.y)
  }

  /** `v / s` for a nonzero scalar `s`; scaling back by `s` recovers `v`. */
  function DivScalar(v: Vector2, s: real): (r: Vector2)
    requires s != 0.0
    ensures MulScalar(r, s) == v
  {
    Vector2(v.x / s, v.y / s)
  }

  predicate NonZeroComponents(v: Vector2) {
    v.x != 0.0 && v.y != 0.0
  }

  /** `a / b` for two vectors: componentwise quotient, undone by `Mul`. */
  function Div(a: Vector2, b: Vector2): (r: Vector2)
    requires NonZeroComponents(b)
    ensures Mul(r, b) == a
  {
    Vector2(a.x / b.x, a.y / b.y)
  }

  function Neg(v: Vector2): Vector2 {
    Vector2(-v.x, -v.y)
  }

  /** `x*x + y*y`: never negative, and zero exactly for the zero vector. */
  function MagnitudeSquared(v: Vector2): (r: real)
    ensures r >= 0.0
    ensures r == 0.0 <==> v == Zero
  {
    Reals.SquareSign(v.x, v.x * v.x);
    Reals.SquareSign(v.y, v.y * v.y);
    v.x * v.x + v.y * v.y
  }

  /** The scalar cross product `a.x*b.y - a.y*b.x` (twice the signed area
      of the parallelogram spanned by `a` and `b`). */
  function Cross(a: Vector2, b: Vector2): real {
    a.x * b.y - a.y * b.x
  }

  // In-place operators: each mutates one component at a time, as the
  // compound assignments do, and ends equal to the binary operator.

  method AddAssign(v: Vector2, rhs: Vector2) returns (v': Vector2)
    ensures v' == Add(v, rhs)
  {
    v' := v;
    v' := v'.(x := v'.x + rhs.x);
    v' := v'.(y := v'.y + rhs.y);
  }

  method SubAssign(v: Vector2, rhs: Vector2) returns (v': Vector2)
    ensures v' == Sub(v, rhs)
  {
    v' := v;
    v' := v'.(x := v'.x - rhs.x);
    v' := v'.(y := v'.y - rhs.y);
  }

  method MulAssign(v: Vector2, rhs: Vector2) returns (v': Vector2)
    ensures v' == Mul(v, rhs)
  {
    v' := v;
    v' := v'.(x := v'.x * rhs.x);
    v' := v'.(y := v'.y * rhs.y);
  }

  method DivAssign(v: Vector2, rhs: Vector2) returns (v': Vector2)
    requires NonZeroComponents(rhs)
    ensures v' == Div(v, rhs)
  {
    v' := v;
    v' := v'.(x := v'.x / rhs.x);
    v' := v'.(y := v'.y / rhs.y);
  }

  // Algebraic laws.

  lemma SubUndoesAdd(a: Vector2, b: Vector2)
    ensures Sub(Add(a, b), b) == a
    ensures Add(a, b) == Vector2(a.x + b.x, a.y + b.y)
    ensures Sub(a, b) == Vector2(a.x - b.x, a.y - b.y)
  {
  }

  lemma NegInvolution(a: Vector2)
    ensures Neg(Neg(a)) == a
    ensures Add(a, Neg(a)) == Zero
  {
  }

  lemma CrossAntisymmetric(a: Vector2, b: Vector2)
    ensures Cross(a, b) == -Cross(b, a)
    ensures Cross(a, a) == 0.0
  {
  }

  lemma CrossLinear(a: Vector2, b: Vector2, c: Vector2, s: real)
    ensures Cross(a, Add(b, c)) == Cross(a, b) + Cross(a, c)
    ensures Cross(Add(a, b), c) == Cross(a, c) + Cross(b, c)
    ensures Cross(a, Sub(b, c)) == Cross(a, b) - Cross(a, c)
    ensures Cross(a, MulScalar(b, s)) == Cross(a, b) * s
  {
  }
}

=== FILE: vec3.dfy ===
/** Three-component vectors over exact reals: componentwise arithmetic,
    truncation to two components, the squared magnitude, the dot product and
    the cross product. */
module Vec3 {

  import Reals
  import Vec2

  datatype Vector3 = Vector3(x: real, y: real, z: real)

  const Zero := Vector3(0.0, 0.0, 0.0)

  /** `vec2`: drops `z`; putting `z` back rebuilds the vector. */
  function Truncate(v: Vector3): (r: Vec2.Vector2)
    ensures Vector3(r.x, r.y, v.z) == v
  {
    Vec2.Vector2(v.x, v.y)
  }

  /** `x*x + y*y + z*z`: never negative, and zero exactly for the zero vector. */
  function MagnitudeSquared(v: Vector3): (r: real)
    ensures r >= 0.0
    ensures r == 0.0 <==> v == Zero
  {
    Reals.SquareSign(v.x, v.x * v.x);
    Reals.SquareSign(v.y, v.y * v.y);
    Reals.SquareSign(v.z, v.z * v.z);
    v.x * v.x + v.y * v.y + v.z * v.z
  }

  function Cross(a: Vector3, b: Vector3): Vector3 {
    Vector3(a.y * b.z - a.z * b.y, a.z * b.x - a.x * b.z, a.x * b.y - a.y * b.x)
  }

  function Dot(a: Vector3, b: Vector3): real {
    a.x * b.x + a.y * b.y + a.z * b.z
  }

  function Add(a: Vector3, b: Vector3): Vector3 {
    Vector3(a.x + b.x, a.y + b.y, a.z + b.z)
  }

  /** Subtraction is the inverse of addition. */
  function Sub(a: Vector3, b: Vector3): (r: Vector3)
    ensures Add(r, b) == a
  {
    Vector3(a.x - b.x, a.y - b.y, a.z - b.z)
  }

  function MulScalar(v: Vector3, s: real): Vector3 {
    Vector3(v.x * s, v.y * s, v.z * s)
  }

  function Mul(a: Vector3, b: Vector3): Vector3 {
    Vector3(a.x * b.x, a.y * b.y, a.z * b.z)
  }

  /** `v / s` for a nonzero scalar; scaling back by `s` recovers `v`. */
  function DivScalar(v: Vector3, s: real): (r: Vector3)
    requires s != 0.0
    ensures MulScalar(r, s) == v
  {
    Vector3(v.x / s, v.y / s, v.z / s)
  }

  predicate NonZeroComponents(v: Vector3) {
    v.x != 0.0 && v.y != 0.0 && v.z != 0.0
  }

  /** Componentwise quotient, undone by `Mul`. */
  function Div(a: Vector3, b: Vector3): (r: Vector3)
    requires NonZeroComponents(b)
    ensures Mul(r, b) == a
  {
    Vector3(a.x / b.x, a.y / b.y, a.z / b.z)
  }

  function Neg(v: Vector3): Vector3 {
    Vector3(-v.x, -v.y, -v.z)
  }

  // In-place operators: each mutates one component at a time, as the
  // compound assignments do, and ends equal to the binary operator.

  method AddAssign(v: Vector3, rhs: Vector3) returns (v': Vector3)
    ensures v' == Add(v, rhs)
  {
    v' := v;
    v' := v'.(x := v'.x + rhs.x);
    v' := v'.(y := v'.y + rhs.y);
    v' := v'.(z := v'.z + rhs.z);
  }

  method SubAssign(v: Vector3, rhs: Vector3) returns (v': Vector3)
    ensures v' == Sub(v, rhs)
  {
    v' := v;
    v' := v'.(x := v'.x - rhs.x);
    v' := v'.(y := v'.y - rhs.y);
    v' := v'.(z := v'.z - rhs.z);
  }

  method MulAssign(v: Vector3, rhs: Vector3) returns (v': Vector3)
    ensures v' == Mul(v, rhs)
  {
    v' := v;
    v' := v'.(x := v'.x * rhs.x);
    v' := v'.(y := v'.y * rhs.y);
    v' := v'.(z := v'.z * rhs.z);
  }

  method DivAssign(v: Vector3, rhs: Vector3) returns (v': Vector3)
    requires NonZeroComponents(rhs)
    ensures v' == Div(v, rhs)
  {
    v' := v;
    v' := v'.(x := v'.x / rhs.x);
    v' := v'.(y := v'.y / rhs.y);
    v' := v'.(z := v'.z / rhs.z);
  }

  // Algebraic laws.

  lemma CrossAnticommutative(a: Vector3, b: Vector3)
    ensures Cross(a, b) == Neg(Cross(b, a))
    ensures Cross(a, a) == Zero
  {
  }

  /** The cross product is perpendicular to both of its operands. */
  lemma CrossOrthogonal(a: Vector3, b: Vector3)
    ensures Dot(a, Cross(a, b)) == 0.0
    ensures Dot(b, Cross(a, b)) == 0.0
  {
  }

  lemma DotSymmetric(a: Vector3, b: Vector3)
    ensures Dot(a, b) == Dot(b, a)
  {
  }

  lemma MagnitudeSquaredIsDot(v: Vector3)
    ensures MagnitudeSquared(v) == Dot(v, v)
    ensures Dot(v, v) >= 0.0
  {
  }

  lemma SubUndoesAdd(a: Vector3, b: Vector3)
    ensures Sub(Add(a, b), b) == a
  {
  }

  lemma MulScalarOne(v: Vector3)
    ensures MulScalar(v, 1.0) == v
  {
  }

  lemma NegInvolution(v: Vector3)
    ensures Neg(Neg(v)) == v
    ensures Add(v, Neg(v)) == Zero
  {
  }
}

=== FILE: vec4.dfy ===
/** Four-component (homogeneous) vectors over exact reals: componentwise
    arithmetic, truncation to three components and the squared magnitude. */
module Vec4 {

  import Reals
  import Vec3

  datatype Vector4 = Vector4(x: real, y: real, z: real, w: real)

  const Zero := Vector4(0.0, 0.0, 0.0, 0.0)

  /** `vec3`: drops `w`; putting `w` back rebuilds the vector. */
  function Truncate(v: Vector4): (r: Vec3.Vector3)
    ensures Vector4(r.x, r.y, r.z, v.w) == v
  {
    Vec3.Vector3(v.x, v.y, v.z)
  }

  /** Never negative, and zero exactly for the zero vector. */
  function MagnitudeSquared(v: Vector4): (r: real)
    ensures r >= 0.0
    ensures r == 0.0 <==> v == Zero
  {
    Reals.SquareSign(v.x, v.x * v.x);
    Reals.SquareSign(v.y, v.y * v.y);
    Reals.SquareSign(v.z, v.z * v.z);
    Reals.SquareSign(v.w, v.w * v.w);
    v.x * v.x + v.y * v.y + v.z * v.z + v.w * v.w
  }

  function Add(a: Vector4, b: Vector4): Vector4 {
    Vector4(a.x + b.x, a.y + b.y, a.z + b.z, a.w + b.w)
  }

  /** Subtraction is the inverse of addition. */
  function Sub(a: Vector4, b: Vector4): (r: Vector4)
    ensures Add(r, b) == a
  {
    Vector4(a.x - b.x, a.y - b.y, a.z - b.z, a.w - b.w)
  }

  function MulScalar(v: Vector4, s: real): Vector4 {
    Vector4(v.x * s, v.y * s, v.z * s, v.w * s)
  }

  function Mul(a: Vector4, b: Vector4): Vector4 {
    Vector4(a.x * b.x, a.y * b.y, a.z * b.z, a.w * b.w)
  }

  /** `v / s` for a nonzero scalar; scaling back by `s` recovers `v`. */
  function DivScalar(v: Vector4, s: real): (r: Vector4)
    requires s != 0.0
    ensures MulScalar(r, s) == v
  {
    Vector4(v.x / s, v.y / s, v.z / s, v.w / s)
  }

  predicate NonZeroComponents(v: Vector4) {
    v.x != 0.0 && v.y != 0.0 && v.z != 0.0 && v.w != 0.0
  }

  /** Componentwise quotient, undone by `Mul`. */
  function Div(a: Vector4, b: Vector4): (r: Vector4)
    requires NonZeroComponents(b)
    ensures Mul(r, b) == a
  {
    Vector4(a.x / b.x, a.y / b.y, a.z / b.z, a.w / b.w)
  }

  function Neg(v: Vector4): Vector4 {
    Vector4(-v.x, -v.y, -v.z, -v.w)
  }

  // In-place operators: each mutates one component at a time, as the
  // compound assignments do, and ends equal to the binary operator.

  method AddAssign(v: Vector4, rhs: Vector4) returns (v': Vector4)
    ensures v' == Add(v, rhs)
  {
    v' := v;
    v' := v'.(x := v'.x + rhs.x);
    v' := v'.(y := v'.y + rhs.y);
    v' := v'.(z := v'.z + rhs.z);
    v' := v'.(w := v'.w + rhs.w);
  }

  method SubAssign(v: Vector4, rhs: Vector4) returns (v': Vector4)
    ensures v' == Sub(v, rhs)
  {
    v' := v;
    v' := v'.(x := v'.x - rhs.x);
    v' := v'.(y := v'.y - rhs.y);
    v' := v'.(z := v'.z - rhs.z);
    v' := v'.(w := v'.w - rhs.w);
  }

  method MulAssign(v: Vector4, rhs: Vector4) returns (v': Vector4)
    ensures v' == Mul(v, rhs)
  {
    v' := v;
    v' := v'.(x := v'.x * rhs.x);
    v' := v'.(y := v'.y * rhs.y);
    v' := v'.(z := v'.z * rhs.z);
    v' := v'.(w := v'.w * rhs.w);
  }

  method DivAssign(v: Vector4, rhs: Vector4) returns (v': Vector4)
    requires NonZeroComponents(rhs)
    ensures v' == Div(v, rhs)
  {
    v' := v;
    v' := v'.(x := v'.x / rhs.x);
    v' := v'.(y := v'.y / rhs.y);
    v' := v'.(z := v'.z / rhs.z);
    v' := v'.(w := v'.w / rhs.w);
  }

  // Algebraic laws.

  lemma AddCommutativeAssociative(a: Vector4, b: Vector4, c: Vector4)
    ensures Add(a, b) == Add(b, a)
    ensures Add(Add(a, b), c) == Add(a, Add(b, c))
  {
  }

  lemma MulScalarDistributes(a: Vector4, b: Vector4, s: real)
    ensures MulScalar(Add(a, b), s) == Add(MulScalar(a, s), MulScalar(b, s))
  {
  }

  lemma SubUndoesAdd(a: Vector4, b: Vector4)
    ensures Sub(Add(a, b), b) == a
  {
  }

  lemma NegInvolution(v: Vector4)
    ensures Neg(Neg(v)) == v
    ensures Add(v, Neg(v)) == Zero
  {
  }
}
